=== FILE: README.md ===
# InventoryManager backend: a Dafny model of its services and handlers

This project models the request-handling core of the InventoryManager
backend. The backend is a Go web service over a PostgREST database. It
serves items and suppliers.

The model covers:

- the error normaliser, which turns a PostgREST error text into an HTTP
  status (`PostgresToHTTPError`, `IsCustomError`);
- the request helpers: id parsing (`strconv.ParseInt(s, 10, 8)`), the
  protected-field strip, the required-field check and `InRange`;
- both copies of the items service and the supplier and contact-info
  services. The model covers their error classification, their image URLs,
  and the arithmetic and query filters of their paged listings;
- the item and supplier handlers, which map a request and a service outcome
  to a status code and a response envelope.

Every backend answer is an input to the model. A call that returns one row
receives a `Fetch`: the backend's error text, a response that could not be
decoded, or the decoded value. A paged listing receives the count query's
answer and the range query's answer, and returns the list of queries it
issued together with its outcome. That list is where the filter discrepancy
shows. Clock readings and the storage base URL are parameters. A handler
takes its service as a function parameter. It answers with either
`Respond(status, envelope)` or `Panic(reason)`, which stands for a Go
runtime panic.

Modules, in dependency order:

- `Wrappers`: `Option`, `Result`.
- `Schemas`: entities, status codes, JSON values, Go errors, replies.
- `Text`: decimal formatting, `int8` parsing, `TrimRight`, `Contains`.
- `Errors`: the regular expression `\(([^)]+)\)` and the code table.
- `Utils`, `Classify`, `Paging`, `Queries`.
- `ItemCore`, `ItemService`, `LegacyItemService`.
- `SupplierService`, `ContactInfoService`.
- `Responses`, `ItemHandlers`, `SupplierHandlers`.

## Model

| member | source | states |
|---|---|---|
| Text.FormatInt | v1/routes/items/service.go:18 | `%d` formatting: the digits after an optional `-` denote the magnitude of the number, and there is no leading zero except in `0` itself. |
| Text.ParseInt8 | v1/utils/utils.go:13 | Base-10 parse into 8 bits. It accepts exactly the texts denoting a value in -128..127: digits with an optional `+` or `-`. Any such denoted value is the one returned. |
| Text.ParseFormatRoundTrip | v1/utils/utils.go:11-18 | Parsing the decimal text of any `int8` gives that number back. |
| Text.TrimRight | v1/routes/items/service.go:289 | The result is a prefix of the input, only the trim character was removed, and the result does not end in it. |
| Text.Contains | v1/utils/error.go:24 | True exactly when the pattern occurs at some position of the text. |
| Errors.FirstParenGroup | v1/utils/error.go:26-31 | The capture of the leftmost match of `\(([^)]+)\)`. None exactly when no `(` is followed by one or more non-`)` characters and then `)`. |
| Errors.FirstParenGroupShape | v1/utils/error.go:26 | A capture is non-empty and contains no `)`. |
| Errors.LeftmostGroupIsExtracted | v1/utils/error.go:26-31 | Whenever the leftmost match spans positions i..j, the function returns the text strictly between them. |
| Errors.EmptyParensNeverMatch | v1/utils/error.go:26 | `()` does not match, and the scan goes on to the next group. |
| Errors.PostgresToHTTPError | v1/utils/error.go:22-60 | Returns None exactly when the text lacks `PGRST`. Otherwise the status is 400, 404 or 500, and anything but 500 comes from a tabled first capture. |
| Errors.TabledCodes | v1/utils/error.go:36-47 | PGRST100/102/108 give 400, and PGRST116/121 give 404. |
| Errors.UntabledCodes | v1/utils/error.go:44-56 | A `PGRST` text with no capture, or with an untabled one, gives 500. |
| Errors.StatusDependsOnFirstGroupOnly | v1/utils/error.go:24-56 | Two `PGRST` texts with the same first capture get the same status. |
| Errors.TabledCodeExample | v1/utils/error.go:40 | `(PGRST116)` gives 404. |
| Errors.UntabledCodeExample | v1/utils/error.go:45-56 | `(PGRST999)` gives 500. |
| Errors.FirstGroupWinsExample | v1/utils/error.go:27-30 | `(x) PGRST116` gives 500: only the first group is consulted. |
| Errors.NestedParenExample | v1/utils/error.go:26 | `((PGRST116)` captures `(PGRST116` and gives 500. |
| Classify.FailureStatus | v1/routes/items/service.go:30-37 | The status starts as 500 and takes the normaliser's status when there is one. It is always 400, 404 or 500, and it is 500 for any text without `PGRST`. |
| Classify.ClassifyBackendError | v1/routes/items/service.go:28-48 | The code is the normaliser's status, or 500 without `PGRST`. Only 404 takes the not-found message. 400 arises exactly for PGRST100/102/108. The details are kept. |
| Utils.GetIdFromContext | v1/utils/utils.go:11-18 | Returns the `int8` the parameter denotes. Otherwise it fails with `invalid ID: ` followed by the parameter. |
| Utils.IdRoundTrip | v1/utils/utils.go:11-18 | The decimal text of every `int8` id is accepted as that id. |
| Utils.RemoveProtectedFields | v1/utils/utils.go:24-28 | The keys left are the input's keys minus the listed ones. Surviving values are unchanged. |
| Utils.RemoveProtectedFieldsIdempotent | v1/utils/utils.go:24-28 | Stripping twice is stripping once. |
| Utils.CheckRequiredFields | v1/utils/utils.go:30-37 | No error exactly when every required key is present. Otherwise the message names the first missing key in list order. |
| Utils.InRange | v1/utils/utils.go:39-41 | Inclusive on both ends. |
| Paging.LastPageIsCeiling | v1/routes/items/service.go:225 | `(count + size - 1) / size` is the least page count whose pages hold every row. It is zero exactly for no rows. |
| Paging.WindowBounds | v1/routes/items/service.go:234-242 | A served page's range lies within the rows and is at most one page long. Every page before the last is full. |
| Paging.WindowsContiguous | v1/routes/items/service.go:235-237 | Each page starts right after the previous one ends. |
| Paging.WindowsSpan | v1/routes/items/service.go:225-237 | Page 1 starts at row 0, and the last page ends at the last row. |
| Paging.WindowsCover | v1/routes/items/service.go:225-242 | Every row index lies in exactly one served page: page `k / size + 1`. |
| Paging.WindowsDisjoint | v1/routes/items/service.go:235-237 | Distinct pages share no row. |
| Paging.WindowExample | v1/routes/items/service.go:225-237 | With 25 rows and size 10, there are 3 pages, and page 3 is rows 20..24. |
| Paging.Slice | v1/routes/items/service.go:242 | An in-bounds inclusive range selects exactly those rows. |
| Paging.PagesUpToIsPrefix | v1/routes/items/service.go:225-242 | Reading pages 1..n yields the first `n * size` rows, or all rows once that passes the end. |
| Paging.PagesTile | v1/routes/items/service.go:225-242 | Reading pages 1..last, in turn, yields the rows exactly once, in order. |
| Queries.SearchPattern | v1/routes/items/service.go:301 | The pattern is the name wrapped in one `%` on each side. |
| Queries.Select | v1/routes/items/service.go:206-209 | Exactly the rows passing every filter come out. Each selected row passes and comes from the table, and every passing row of the table is selected. A one-row table is kept or dropped whole. |
| Queries.SelectAppend | v1/routes/items/service.go:206-209 | Selection keeps the table order: selecting from two tables laid end to end gives the two selections laid end to end. |
| Queries.SelectFewerFilters | v1/routes/items/service.go:206-243 | Dropping filters never selects fewer rows. This is why a count with more filters can undercount the range. |
| ItemCore.GetItemImage | v1/routes/items/service.go:284-292 | The URL is the base with its trailing slashes dropped, then the bucket path, then the id in decimal. |
| ItemCore.ImageUrlIgnoresTrailingSlash | v1/routes/items/service.go:289 | A trailing slash on the base URL does not change the URL. |
| ItemCore.ImageUrlNamesId | v1/routes/items/service.go:287-289 | The id parses back from the URL's last segment. |
| ItemCore.WithImage | v1/routes/items/service.go:60 | The newer copy sets the image URL from the item's own id and changes nothing else. The older copy leaves the item as decoded. |
| ItemCore.WithImages | v1/routes/items/service.go:277-279 | Every item of the page, and only those, gets its URL, in place. |
| ItemCore.WithImagesAppend | v1/routes/items/service.go:277-279 | Setting URLs page by page equals setting them on the joined pages. |
| ItemCore.ItemCall | v1/routes/items/service.go:16-164 | Succeeds exactly on a decoded row. A backend error gets the normaliser's status (500 without `PGRST`). Its message is `Item not found` exactly when that status is 404, and the operation's default message otherwise. A decode failure is 500 `Failed to parse item data`. |
| ItemCore.DeleteCall | v1/routes/items/service.go:167-201 | A nil error exactly when the backend succeeds. A failure gets the normaliser's status, with `Item not found` exactly for 404 and the "updating" default message otherwise. |
| ItemCore.PagedListing | v1/routes/items/service.go:203-282 | The count query is always issued first. A count error is 500 `Failed to retrieve items`. Zero rows give an empty page and no range query. A page past the last is 400 `Page out of range`. Otherwise the page's window is selected. A decoded range answer comes back with the count, and a range failure gets the normaliser's status, with the no-items message exactly for 404. |
| ItemCore.ServedListing | v1/routes/items/service.go:234-281 | On a served page, a decoded range answer is returned with images, together with the count. |
| ItemCore.WithImagesKeepsDeletedAt | v1/routes/items/service.go:277-279 | Setting image URLs never changes a row's soft-delete mark. |
| ItemService.GetItem | v1/routes/items/service.go:16-63 | Succeeds exactly on a decoded row, which comes back with its image URL and otherwise unchanged. A backend error gets the normaliser's status, with `Item not found` exactly for 404 and `An error occurred while retrieving the item` otherwise. A decode failure is 500. |
| ItemService.UpdateItem | v1/routes/items/service.go:65-115 | The map sent is the caller's map with `updated_at` overwritten by the clock reading; other keys pass unchanged. A decoded row comes back with its image URL and otherwise unchanged. A backend error gets the normaliser's status, with `Item not found` exactly for 404 and the "updating" message otherwise. A decode failure is 500. |
| ItemService.CreateItem | v1/routes/items/service.go:117-165 | Both timestamps are overwritten by clock readings, and nothing else in the item changes. A decoded row comes back with its image URL and otherwise unchanged. A backend error gets the normaliser's status, with `Item not found` exactly for 404 and the "creating" message otherwise. A decode failure is 500. |
| ItemService.DeleteItem | v1/routes/items/service.go:167-201 | A nil error exactly on backend success. A failure gets the normaliser's status, with `Item not found` exactly for 404 and the "updating" message otherwise. |
| ItemService.GetPagedItems | v1/routes/items/service.go:203-282 | The listing's full outcome table, with a count that filters `deleted_at IS NULL` and a range query without that filter. Every returned item carries its image URL. |
| ItemService.PagedItemSearch | v1/routes/items/service.go:294-377 | The listing's full outcome table. Both queries filter on name ILIKE `%name%`, but only the count filters deleted rows. |
| ItemService.DeletedRowsLeakIntoPages | v1/routes/items/service.go:206-243 | A deleted row ahead of a live one is served on page 1, while the count reports one row. |
| ItemService.GetPagedItemsLive | v1/routes/items/service.go:203-243 | Corrected listing: the full outcome table, with both queries filtering `deleted_at IS NULL`. |
| ItemService.LiveRows | v1/routes/items/service.go:209 | Only rows that are not soft-deleted remain. |
| ItemService.LiveRowsExact | v1/routes/items/service.go:209 | The live rows are exactly the table's rows without a `deleted_at`: each comes from the table, and none is missed. |
| ItemService.LiveRowsAppend | v1/routes/items/service.go:209 | The live rows keep the table order. |
| ItemService.ServedWindowOfLive | v1/routes/items/service.go:225-282 | Corrected, over any rows that are all live, a served page is its window of those rows with image URLs, and holds no deleted row. |
| ItemService.LivePageIsWindowOfLiveRows | v1/routes/items/service.go:225-282 | Corrected, a served page is exactly its window of the live rows, with image URLs, and holds no deleted row. |
| ItemService.LivePagesMatchSlices | v1/routes/items/service.go:225-282 | Corrected, pages 1..n are the live rows' first n pages, with image URLs. |
| ItemService.LivePagesTileLiveRows | v1/routes/items/service.go:225-282 | Corrected, pages 1..last yield every live row exactly once, in order, and nothing else. |
| LegacyItemService.GetItem | v1/items/service.go:15-60 | Succeeds exactly on a decoded row, returned as decoded. A backend error gets the normaliser's status, with `Item not found` exactly for 404 and the "retrieving" message otherwise. A decode failure is 500. |
| LegacyItemService.UpdateItem | v1/items/service.go:62-110 | `updated_at` is overwritten into the sent map, and the other keys pass. The row is returned as decoded. A backend error gets the normaliser's status, with `Item not found` exactly for 404 and the "updating" message otherwise. |
| LegacyItemService.CreateItem | v1/items/service.go:112-158 | Both timestamps are overwritten, and nothing else changes. The row is returned as decoded. A backend error gets the normaliser's status, with `Item not found` exactly for 404 and the "creating" message otherwise. |
| LegacyItemService.DeleteItem | v1/items/service.go:160-194 | A nil error exactly on success. A failure gets the normaliser's status, with `Item not found` exactly for 404 and the "updating" message otherwise. |
| LegacyItemService.GetPagedItems | v1/items/service.go:196-273 | The full outcome table of the listing, with the same arithmetic and the same missing range filter as the newer copy. Rows come back as decoded, without image URLs. |
| SupplierService.SupplierDetailsNameId | v1/routes/suppliers/service.go:43 | The details of a failed fetch name the requested id in decimal. |
| SupplierService.GetSupplier | v1/routes/suppliers/service.go:13-63 | Succeeds exactly on a decoded row. A nil contact list becomes empty, and a present one is unchanged. A backend error gets the normaliser's status, with `Supplier not found` exactly for 404 and the default message otherwise; its details name the id. A parse failure is 500. |
| SupplierService.GetSupplierIdempotent | v1/routes/suppliers/service.go:57-60 | A returned supplier passes through the normalisation unchanged. |
| ContactInfoService.ContactDetailsNameId | v1/routes/supplier-contact-info/service.go:41 | The details of a failed fetch name the supplier id in decimal. |
| ContactInfoService.GetSupplierContactInfo | v1/routes/supplier-contact-info/service.go:13-56 | A normaliser 404 is an empty list and no error, so no error is ever 404. Any other failure gets the normaliser's status with the default message, and its details name the id. Decoded records pass unchanged. |
| Responses.Raise | v1/routes/items/service.go:43-47 | Services return their custom error by pointer. The value is untouched. |
| Responses.RaiseOption | v1/routes/items/service.go:193-200 | A delete's error, if any, is a pointer. |
| Responses.ErrorReply | v1/items/handlers.go:28-44 | A pointer error passes its code and message. A non-custom error gives 500 with the handler's message. A custom error held by value panics on the pointer assertion. A failure carries no data. |
| Responses.ErrorReplyHidesDetails | v1/items/handlers.go:29-35 | Changing an error's details never changes the response. |
| Responses.IsCustomErrorDecidesReply | v1/utils/error.go:12-20 | `IsCustomError` holds for a `CustomError` value or pointer and for nothing else. An accepted error is answered with its own code and message, or panics in the value form; a rejected one gets the fallback 500. |
| ItemHandlers.GetItemHandler | v1/items/handlers.go:16-52 | An invalid id is 400 `Invalid ID`. Otherwise the service's item is 200 with the item, and its error goes through the shared error reply. |
| ItemHandlers.UpdateRequest | v1/items/handlers.go:54-77 | The order of checks is id, then body. A `null` body panics on the service's map write. An object is forwarded with exactly the protected keys removed. |
| ItemHandlers.UpdateItemHandler | v1/items/handlers.go:54-102 | A rejected request is answered as the request stage says. Otherwise the outcome is 200 with the item, or the shared error reply. |
| ItemHandlers.NullUpdateBodyPanics | v1/items/handlers.go:65-77 | As written, id `7` with body `null` panics. |
| ItemHandlers.UpdateRequestFixed | v1/items/handlers.go:65-73 | Corrected, a `null` body with a valid id is rejected with 400 `Invalid JSON in body.`. Every other request gets exactly the as-written result. |
| ItemHandlers.UpdateItemHandlerFixed | v1/items/handlers.go:54-102 | Corrected, a `null` body is answered with 400. Any other body is answered exactly as the handler as written answers it. |
| ItemHandlers.FixedUpdateNeverPanics | v1/items/handlers.go:54-102 | Corrected and wired to its service, the update handler never panics. |
| ItemHandlers.UpdateSendsServerTimestampOnly | v1/items/handlers.go:14 | The sent update never carries `id`, `created_at` or `deleted_at`. Its `updated_at` is the server clock's, and other client keys pass unchanged. |
| ItemHandlers.BuildItem | v1/items/handlers.go:125-132 | The literal is built exactly when every read key is present with the right JSON type. The fields come from those keys: quantity and supplier_id are narrowed, and purchase_price is kept as a real. The id, notes, timestamps, image URL and soft-delete mark keep their zero values. |
| ItemHandlers.CreateRequest | v1/items/handlers.go:104-132 | A malformed body is 400. A missing required key is 400, naming the first one missing. With every required key present, a body whose read keys all have the right JSON type is forwarded as the item built from it, and any other body panics. |
| ItemHandlers.CreateReply | v1/items/handlers.go:134-159 | A rejected request is answered as the request stage says. A service error goes through the shared error reply with `Failed to create item`, and a created item is 201. |
| ItemHandlers.CreateItemHandler | v1/items/handlers.go:104-159 | Only 201 is a success. A malformed body is 400 `Invalid JSON in body.`. A missing required key is 400 naming the first one missing, and a `null` body is 400 naming `name`. With every required key present, a badly typed body panics, a service error goes through the shared error reply, and a created item is 201 with that item. |
| ItemHandlers.MissingPurchasePricePanics | v1/items/handlers.go:115-129 | A body passing the required-key check without `purchase_price` panics. |
| ItemHandlers.CreateItemHandlerFixed | v1/items/handlers.go:115-129 | Corrected, a body without `purchase_price` is 400; a body passing the corrected check whose literal builds is handed to the service and answered as the create reply (201 on success); any body holding both `price` and `purchase_price`, and any non-object body, is answered exactly as the as-written handler answers it. |
| ItemHandlers.FixedCreateRejectsMissingKeys | v1/items/handlers.go:104-159 | Corrected, a missing key is 400 and never a panic. A panic needs every key present. |
| ItemHandlers.DeleteItemHandler | v1/items/handlers.go:161-196 | An invalid id is 400. A nil error is 200 without data. An error goes through the shared error reply. |
| ItemHandlers.GetPagedItemsHandler | v1/items/handlers.go:198-250 | The page is checked before the size, and each must parse and be at least 1. The service is called only with valid values. Success returns count, page, size and items. |
| ItemHandlers.InvalidIdSkipsService | v1/items/handlers.go:17-25 | An invalid id gets the same 400 whatever the service would do. |
| ItemHandlers.InvalidPagingSkipsService | v1/items/handlers.go:202-218 | An invalid page or size gets a 400 that is independent of the service. |
| ItemHandlers.WiredGetNeverPanics | v1/items/handlers.go:27-45 | Wired to its service, the get handler never reaches the pointer-assertion panic. |
| ItemHandlers.WiredDeleteNeverPanics | v1/items/handlers.go:172-190 | Wired to its service, the delete handler never panics. |
| ItemHandlers.WiredListNeverPanics | v1/items/handlers.go:220-238 | Wired to its service, the paged-list handler never panics. |
| SupplierHandlers.GetSupplierHandler | v1/routes/suppliers/handlers.go:15-51 | An invalid id is 400. A supplier is 200. A pointer error passes its code and message, and any non-custom error is 500 `Failed to retrieve supplier`. |
| SupplierHandlers.InvalidSupplierIdSkipsService | v1/routes/suppliers/handlers.go:16-24 | An invalid id gets a 400 that is independent of the service. |
| SupplierHandlers.WiredSupplierHandler | v1/routes/suppliers/handlers.go:15-51 | Wired to its service, the handler never panics. A supplier it returns always has a contact list. |

## Left out

- Database I/O: `connect.go`, the routers and `main.go` are not modelled. Each backend answer is an input.
- PostgREST semantics are not modelled. The listing records the filters and the window it asks for. Only the reference table (`Queries.Select`, `Paging.Slice`) interprets them.
- The single-row queries' own filters (`id = …`, `deleted_at IS NULL`) are not traced, because they are fixed and correct.
- Row ordering (`ORDER BY name`) is not modelled, since the table order stands for it.
- `ILIKE` matching is not modelled; it is a parameter of `Queries.Select`.
- JSON decoding, gin binding and `strconv.Atoi` are not modelled. They appear only as their results: a decoded value or a parse failure, a `Body`, or an `Option<int>`.
- `ItemHandlers.BuildItem` leaves the `float64`-to-`int8` conversion as the `narrow` parameter. `PurchasePrice` is a `real`, because floating point is not modelled.
- The clock (`GetCurrentISODate`) and `os.Getenv("SUPABASE_URL")` are parameters, and logging (`slog`) is dropped.
- Go `int` overflow of `page * pageSize` and of the `int64` count is not modelled. Integers are unbounded, and the count is a `nat`.
- gin's recovery middleware, which turns a panic into a 500 response, is outside the model. A panic is the terminal `Panic` reply.
- The nil-versus-empty distinction of Go slices is kept only for `Supplier.contactInfo`, where the source acts on it.
- The `Error()` text of `schemas.CustomError` is not modelled. No decision reads it.
- `v1/items/query.go` is not part of this model. Nothing in the core calls it.
- The suppliers handlers declare `protectedFields` but never use it, so it has no counterpart.
- Ids: `Utils.GetIdFromContext` follows `ParseInt(s, 10, 8)` and accepts -128..127, including signed forms such as `+5` and `-3`.
- ItemCore.PagedListing, ItemService.GetPagedItems, ItemService.PagedItemSearch, ItemService.GetPagedItemsLive, LegacyItemService.GetPagedItems: these require a page size of at least 1. With a page size of 0, the Go code divides by zero and panics (v1/routes/items/service.go:225 and 318, v1/items/service.go:218). The older handler rejects such a size first (v1/items/handlers.go:211-218). The newer copy's callers are not part of this model.
- SupplierHandlers.GetSupplierHandler: the panic of a value-form custom error is stated on `Responses.ErrorReply`, not repeated here.

## Findings

| source | as written | input that shows it | evidently intended | confidence | as-written member | corrected member |
|---|---|---|---|---|---|---|
| v1/routes/items/service.go:239-243 | The range query of `GetPagedItems` has no `deleted_at IS NULL` filter, but the count query has one. The same holds in `PagedItemSearch` (332-338) and in `v1/items/service.go:234-238`. | A table of one soft-deleted row followed by one live row, page 1, size 10. The count is 1, and the one item served is the deleted row. | Both queries filter out soft-deleted rows, so the pages tile the live rows. | high, not executed | ItemService.DeletedRowsLeakIntoPages | ItemService.LivePagesTileLiveRows |
| v1/items/handlers.go:115-129 | The required-key check lists `price`, but the item literal asserts `itemData["purchase_price"].(float64)`. | A body with name, description, quantity, price, supplier_id and category of the right types, and no `purchase_price`. The check passes, then the type assertion on a missing key panics. | Require `purchase_price`, the key that is read, so that a missing price is a 400. | high, not executed | ItemHandlers.MissingPurchasePricePanics | ItemHandlers.FixedCreateRejectsMissingKeys |
| v1/items/handlers.go:65-77 | The body `null` binds without error to a nil map. `UpdateItem` then writes `updated_at` into it (v1/items/service.go:67). | `PATCH` with id `7` and the body `null`: the write into a nil map panics. | Reject a `null` body as invalid JSON with 400. | medium (it relies on the binder decoding `null` into a nil map without error), not executed | ItemHandlers.NullUpdateBodyPanics | ItemHandlers.FixedUpdateNeverPanics |

=== FILE: classify.dfy ===
/**
 * The error classification every service repeats after a failed backend call:
 * a 500 with an operation-specific message by default, replaced by the
 * normaliser's status when there is one, with a 404 also renamed to an
 * entity-specific message.
 */
module Classify {
  import opened Wrappers
  import opened Schemas
  import opened Text
  import opened Errors

  /**
   * The status a service reports for a failed backend call: the normaliser's
   * status when it gives one, and the default 500 otherwise.
   */
  function FailureStatus(text: string): (code: int)
    ensures code in {StatusBadRequest, StatusNotFound, StatusInternalServerError}
    ensures !Contains(text, Marker) ==> code == StatusInternalServerError
    ensures PostgresToHTTPError(text).Some? ==> code == PostgresToHTTPError(text).value
  {
    match PostgresToHTTPError(text)
    case None => StatusInternalServerError
    case Some(code) => code
  }

  /** The `CustomError` a service builds from a failed backend call's error text. */
  function ClassifyBackendError(text: string, defaultMessage: string, notFoundMessage: string, details: string)
    : (e: CustomError)
    ensures e.details == details
    ensures e.code == FailureStatus(text)
    ensures e.code in {StatusBadRequest, StatusNotFound, StatusInternalServerError}
    ensures !Contains(text, Marker) ==> e.code == StatusInternalServerError && e.message == defaultMessage
    ensures e.code == StatusNotFound <==> PostgresToHTTPError(text) == Some(StatusNotFound)
    ensures e.code == StatusNotFound ==> e.message == notFoundMessage
    ensures e.code != StatusNotFound ==> e.message == defaultMessage
    ensures e.code == StatusBadRequest <==>
      Contains(text, Marker) && FirstParenGroup(text) in {Some("PGRST100"), Some("PGRST102"), Some("PGRST108")}
  {
    match PostgresToHTTPError(text)
    case None => CustomError(StatusInternalServerError, defaultMessage, details)
    case Some(code) =>
      CustomError(code, if code == StatusNotFound then notFoundMessage else defaultMessage, details)
  }
}

=== FILE: errors.dfy ===
/**
 * The backend-error normaliser: recognises PostgREST errors by the `PGRST`
 * marker in their text, extracts the code from the first parenthesised group
 * matched by `\(([^)]+)\)`, and looks it up in a five-entry table that follows
 * PostgREST's error-code reference.
 */
module Errors {
  import opened Wrappers
  import opened Schemas
  import opened Text

  /** The text that marks an error as coming from PostgREST. */
  const Marker := "PGRST"

  /** The only backend codes with a status of their own; every other one gives 500. */
  const CodeTable: map<string, int> := map[
    "PGRST100" := StatusBadRequest,
    "PGRST102" := StatusBadRequest,
    "PGRST108" := StatusBadRequest,
    "PGRST116" := StatusNotFound,
    "PGRST121" := StatusNotFound
  ]

  /**
   * The regular expression `\(([^)]+)\)` matches at `i` with its closing
   * parenthesis at `j`: an opening parenthesis, a non-empty run of characters
   * none of which is `)`, and a closing parenthesis. The run may contain `(`.
   */
  ghost predicate GroupAt(s: string, i: int, j: int)
  {
    && 0 <= i && i + 1 < j < |s|
    && s[i] == '(' && s[j] == ')'
    && forall k :: i < k < j ==> s[k] != ')'
  }

  /** Some match of the expression starts at position `i`. */
  ghost predicate MatchStartsAt(s: string, i: int)
  {
    exists j :: GroupAt(s, i, j)
  }

  /** The match at `i`, closing at `j`, is the leftmost match in `s`. */
  ghost predicate IsLeftmostGroup(s: string, i: int, j: int)
  {
    GroupAt(s, i, j) && forall i' :: 0 <= i' < i ==> !MatchStartsAt(s, i')
  }

  /** The position of the first `)` at or after `k`, if there is one. */
  function NextClose(s: string, k: nat): (r: Option<nat>)
    requires k <= |s|
    ensures r.Some? ==> k <= r.value < |s| && s[r.value] == ')'
    ensures r.Some? ==> forall m :: k <= m < r.value ==> s[m] != ')'
    ensures r.None? ==> forall m :: k <= m < |s| ==> s[m] != ')'
    decreases |s| - k
  {
    if k == |s| then None
    else if s[k] == ')' then Some(k)
    else NextClose(s, k + 1)
  }

  /** Where the match that starts at `i` closes, if a match starts there. */
  function CloseOfMatchAt(s: string, i: nat): (r: Option<nat>)
    requires i < |s|
    ensures r.Some? ==> GroupAt(s, i, r.value)
    ensures r.None? ==> !MatchStartsAt(s, i)
  {
    if s[i] != '(' then None
    else
      match NextClose(s, i + 1)
      case None => None
      case Some(j) => if j > i + 1 then Some(j) else None
  }

  /** The group of the leftmost match that starts at or after `i`. */
  function FirstGroupFrom(s: string, i: nat): (r: Option<string>)
    requires i <= |s|
    ensures r.None? ==> forall i', j :: i <= i' ==> !GroupAt(s, i', j)
    ensures r.Some? ==> exists i', j ::
      && i <= i' && GroupAt(s, i', j) && r.value == s[i' + 1..j]
      && forall i'' :: i <= i'' < i' ==> !MatchStartsAt(s, i'')
    decreases |s| - i
  {
    if i == |s| then None
    else
      match CloseOfMatchAt(s, i)
      case Some(j) => Some(s[i + 1..j])
      case None => FirstGroupFrom(s, i + 1)
  }

  /**
   * `regexp.MustCompile(`\(([^)]+)\)`).FindStringSubmatch(s)[1]`: the group
   * of the leftmost match, or `None` when the expression does not match.
   */
  function FirstParenGroup(s: string): (r: Option<string>)
    ensures r.None? <==> forall i, j :: !GroupAt(s, i, j)
    ensures r.Some? ==> exists i, j :: IsLeftmostGroup(s, i, j) && r.value == s[i + 1..j]
  {
    LeftmostFromStart(s);
    FirstGroupFrom(s, 0)
  }

  /** A match found scanning from position 0 is the leftmost one. */
  lemma LeftmostFromStart(s: string)
    ensures FirstGroupFrom(s, 0).Some? ==>
      exists i, j :: IsLeftmostGroup(s, i, j) && FirstGroupFrom(s, 0).value == s[i + 1..j]
  {
    var r := FirstGroupFrom(s, 0);
    if r.Some? {
      var i, j :| && 0 <= i && GroupAt(s, i, j) && r.value == s[i + 1..j]
                  && forall i'' :: 0 <= i'' < i ==> !MatchStartsAt(s, i'');
      assert IsLeftmostGroup(s, i, j);
    }
  }

  /** A group the expression extracts is never empty and never holds `)`. */
  lemma FirstParenGroupShape(s: string)
    requires FirstParenGroup(s).Some?
    ensures |FirstParenGroup(s).value| > 0
    ensures forall k :: 0 <= k < |FirstParenGroup(s).value| ==> FirstParenGroup(s).value[k] != ')'
  {
    var i, j :| IsLeftmostGroup(s, i, j) && FirstParenGroup(s).value == s[i + 1..j];
    var g := s[i + 1..j];
    forall k | 0 <= k < |g|
      ensures g[k] != ')'
    {
      assert g[k] == s[i + 1 + k];
    }
  }

  /**
   * `PostgresToHTTPError`: `None` (Go's nil) for an error that is not
   * PostgREST's; otherwise the table's status for the first parenthesised
   * group, or 500 when there is no group or the table lacks it.
   */
  function PostgresToHTTPError(text: string): (r: Option<int>)
    ensures r.None? <==> !Contains(text, Marker)
    ensures r.Some? ==> r.value in {StatusBadRequest, StatusNotFound, StatusInternalServerError}
    ensures r.Some? && r.value != StatusInternalServerError ==>
      FirstParenGroup(text).Some? && FirstParenGroup(text).value in CodeTable
  {
    if Contains(text, Marker) then
      var errCode := match FirstParenGroup(text) case Some(g) => g case None => "";
      if errCode != "" && errCode in CodeTable then Some(CodeTable[errCode])
      else Some(StatusInternalServerError)
    else None
  }

  /** With the marker present, a tabled first group gets its table status. */
  lemma TabledCodes(text: string)
    requires Contains(text, Marker)
    ensures FirstParenGroup(text) in {Some("PGRST100"), Some("PGRST102"), Some("PGRST108")} ==>
      PostgresToHTTPError(text) == Some(StatusBadRequest)
    ensures FirstParenGroup(text) in {Some("PGRST116"), Some("PGRST121")} ==>
      PostgresToHTTPError(text) == Some(StatusNotFound)
  {
  }

  /** With the marker present, no group or an untabled group gives 500. */
  lemma UntabledCodes(text: string)
    requires Contains(text, Marker)
    requires FirstParenGroup(text).None? || FirstParenGroup(text).value !in CodeTable
    ensures PostgresToHTTPError(text) == Some(StatusInternalServerError)
  {
  }

  /**
   * The status depends only on the first parenthesised group and not on where
   * the marker stands: two PostgREST errors with the same first group get the
   * same status.
   */
  lemma StatusDependsOnFirstGroupOnly(a: string, b: string)
    ensures Contains(a, Marker) && Contains(b, Marker) && FirstParenGroup(a) == FirstParenGroup(b) ==>
      PostgresToHTTPError(a) == PostgresToHTTPError(b)
  {
  }

  /** `()` never matches: the group must be non-empty. */
  lemma EmptyParensNeverMatch()
    ensures FirstParenGroup("()").None?
    ensures FirstParenGroup("()(PGRST116)") == Some("PGRST116")
  {
    ScanSkipsEmptyParens();
  }

  /** The scan passes over `()` and takes the group after it. */
  lemma ScanSkipsEmptyParens()
    ensures FirstParenGroup("()(PGRST116)") == Some("PGRST116")
  {
    var s := "()(PGRST116)";
    LeftmostAfterEmptyParens();
    LeftmostGroupIsExtracted(s, 2, 11);
  }

  /**
   * In `()(PGRST116)` no match starts at the first two positions, and the
   * one at the third encloses `PGRST116`.
   */
  lemma LeftmostAfterEmptyParens()
    ensures IsLeftmostGroup("()(PGRST116)", 2, 11)
    ensures "()(PGRST116)"[3..11] == "PGRST116"
  {
    var s := "()(PGRST116)";
    assert s[1] == ')';
    assert !MatchStartsAt(s, 0) && !MatchStartsAt(s, 1);
  }

  /** Scanning from any position at or before the leftmost match finds that match. */
  lemma {:induction false} ScanFindsLeftmost(s: string, k: nat, i: int, j: int)
    requires IsLeftmostGroup(s, i, j) && k <= i
    ensures FirstGroupFrom(s, k) == Some(s[i + 1..j])
    decreases i - k
  {
    if k == i {
      CloseOfGroup(s, i, j);
    } else {
      assert !MatchStartsAt(s, k);
      ScanFindsLeftmost(s, k + 1, i, j);
    }
  }

  /** Where a match starts, the scan finds its one closing parenthesis. */
  lemma CloseOfGroup(s: string, i: int, j: int)
    requires GroupAt(s, i, j)
    ensures CloseOfMatchAt(s, i) == Some(j)
  {
    var m := NextClose(s, i + 1);
    assert s[j] == ')';
    assert m.Some?;
    assert m.value == j;
  }

  /** The leftmost match determines the extracted group. */
  lemma LeftmostGroupIsExtracted(s: string, i: int, j: int)
    requires IsLeftmostGroup(s, i, j)
    ensures FirstParenGroup(s) == Some(s[i + 1..j])
  {
    ScanFindsLeftmost(s, 0, i, j);
  }

  /** Worked case: a tabled code as the first group. */
  lemma TabledCodeExample()
    ensures PostgresToHTTPError("(PGRST116)") == Some(StatusNotFound)
  {
    TabledCodeShape();
    LeftmostGroupIsExtracted("(PGRST116)", 0, 9);
  }

  /** Where the marker and the first group stand in `(PGRST116)`. */
  lemma TabledCodeShape()
    ensures OccursAt("(PGRST116)", Marker, 1)
    ensures IsLeftmostGroup("(PGRST116)", 0, 9)
    ensures "(PGRST116)"[1..9] == "PGRST116"
  {
  }

  /** Worked case: an untabled code gives 500. */
  lemma UntabledCodeExample()
    ensures PostgresToHTTPError("(PGRST999)") == Some(StatusInternalServerError)
  {
    UntabledCodeShape();
    LeftmostGroupIsExtracted("(PGRST999)", 0, 9);
  }

  /** Where the marker and the first group stand in `(PGRST999)`. */
  lemma UntabledCodeShape()
    ensures OccursAt("(PGRST999)", Marker, 1)
    ensures IsLeftmostGroup("(PGRST999)", 0, 9)
    ensures "(PGRST999)"[1..9] == "PGRST999"
  {
  }

  /**
   * Worked case: the first group is `x`, so the tabled code after the marker
   * plays no part and the status is 500.
   */
  lemma FirstGroupWinsExample()
    ensures PostgresToHTTPError("(x) PGRST116") == Some(StatusInternalServerError)
  {
    FirstGroupWinsShape();
    LeftmostGroupIsExtracted("(x) PGRST116", 0, 2);
  }

  /** Where the marker and the first group stand in `(x) PGRST116`. */
  lemma FirstGroupWinsShape()
    ensures OccursAt("(x) PGRST116", Marker, 4)
    ensures IsLeftmostGroup("(x) PGRST116", 0, 2)
    ensures "(x) PGRST116"[1..2] == "x"
  {
  }

  /** Worked case: the group may itself hold `(`, which spoils the code. */
  lemma NestedParenExample()
    ensures PostgresToHTTPError("((PGRST116)") == Some(StatusInternalServerError)
  {
    NestedParenShape();
    LeftmostGroupIsExtracted("((PGRST116)", 0, 10);
  }

  /** Where the marker and the first group stand in `((PGRST116)`. */
  lemma NestedParenShape()
    ensures OccursAt("((PGRST116)", Marker, 2)
    ensures IsLeftmostGroup("((PGRST116)", 0, 10)
    ensures "((PGRST116)"[1..10] == "(PGRST116"
  {
  }
}

=== FILE: item_core.dfy ===
/**
 * What the two copies of the items service share: the error classification
 * of the single-item operations, the paged listing, and the public image URL
 * that only the newer copy attaches (`imageBase` is `None` for the older copy).
 */
module ItemCore {
  import opened Wrappers
  import opened Schemas
  import opened Text
  import opened Errors
  import opened Classify
  import opened Paging
  import opened Queries
  import Utils

  /** What comes between the trimmed base URL and the id in an image URL. */
  const ImagePath := "/storage/v1/object/public/item-images/"

  /**
   * `GetItemImage`: the public storage URL of an item's image. The base URL
   * (read from the environment in the source) is a parameter; its trailing
   * slashes are dropped, so the junction never doubles a slash.
   */
  function GetItemImage(baseUrl: string, id: Int8): (url: string)
    ensures exists b :: && b <= baseUrl
                        && (|b| == 0 || b[|b| - 1] != '/')
                        && (forall k :: |b| <= k < |baseUrl| ==> baseUrl[k] == '/')
                        && url == b + ImagePath + FormatInt(id)
  {
    TrimRight(baseUrl, '/') + ImagePath + FormatInt(id)
  }

  /** Trailing slashes on the base URL make no difference to an image URL. */
  lemma {:induction false} ImageUrlIgnoresTrailingSlash(baseUrl: string, id: Int8)
    ensures GetItemImage(baseUrl + "/", id) == GetItemImage(baseUrl, id)
  {
    assert (baseUrl + "/")[..|baseUrl + "/"| - 1] == baseUrl;
  }

  /** The id can be read back from the end of its image URL. */
  lemma ImageUrlNamesId(baseUrl: string, id: Int8)
    ensures var url := GetItemImage(baseUrl, id);
            var n := |FormatInt(id)|;
            n <= |url| && Utils.GetIdFromContext(url[|url| - n..]) == Ok(id)
  {
    var url := GetItemImage(baseUrl, id);
    var n := |FormatInt(id)|;
    assert url[|url| - n..] == FormatInt(id);
    Utils.IdRoundTrip(id);
  }

  /** An item as a service returns it: with its image URL when the copy sets one. */
  function WithImage(item: Item, imageBase: Option<string>): (r: Item)
    ensures imageBase.None? ==> r == item
    ensures imageBase.Some? ==> r.imageUrl == Some(GetItemImage(imageBase.value, item.id))
    ensures r.(imageUrl := item.imageUrl) == item
  {
    match imageBase
    case None => item
    case Some(base) => item.(imageUrl := Some(GetItemImage(base, item.id)))
  }

  /** `WithImage` applied to every item of a page, as the loop over `items` does. */
  function WithImages(items: seq<Item>, imageBase: Option<string>): (r: seq<Item>)
    ensures |r| == |items|
    ensures forall i :: 0 <= i < |items| ==> r[i] == WithImage(items[i], imageBase)
  {
    seq(|items|, i requires 0 <= i < |items| => WithImage(items[i], imageBase))
  }

  /** Attaching images distributes over concatenation of pages. */
  lemma WithImagesAppend(a: seq<Item>, b: seq<Item>, imageBase: Option<string>)
    ensures WithImages(a + b, imageBase) == WithImages(a, imageBase) + WithImages(b, imageBase)
  {
  }

  /** The four single-item operations. `Remove` is `DeleteItem`. */
  datatype ItemOp = Retrieve | Modify | Insert | Remove

  /** The default message of a failed backend call; `DeleteItem`'s says "updating". */
  function DefaultMessage(op: ItemOp): string
  {
    match op
    case Retrieve => "An error occurred while retrieving the item"
    case Modify => "An error occurred while updating the item"
    case Insert => "An error occurred while creating the item"
    case Remove => "An error occurred while updating the item"
  }

  const ItemNotFound := "Item not found"
  const ItemParseFailed := "Failed to parse item data"

  /** The private details of a failed backend call. */
  function CallDetails(op: ItemOp, id: Int8, text: string): string
  {
    match op
    case Retrieve => "Error retrieving item with ID " + FormatInt(id) + ": " + text
    case Modify => "Error updating item with ID " + FormatInt(id) + ": " + text
    case Insert => "Error creating item: " + text
    case Remove => "Error updating item with ID " + FormatInt(id) + ": " + text
  }

  /** The private details of a response that could not be decoded. */
  function ParseDetails(op: ItemOp, id: Int8, reason: string): string
  {
    if op == Insert then "Error parsing item data while creating item: " + reason
    else "Error parsing item data for ID " + FormatInt(id) + ": " + reason
  }

  /**
   * The outcome of a single-item operation whose backend call returned one
   * row: the failure taxonomy of `GetItem`, `UpdateItem` and `CreateItem`.
   * (`id` is unused by `Insert`, which has no id yet.)
   */
  function ItemCall(op: ItemOp, id: Int8, fetched: Fetch<Item>, imageBase: Option<string>)
    : (r: Result<Item, CustomError>)
    requires op != Remove
    ensures r.Ok? <==> fetched.Decoded?
    ensures r.Ok? ==> r.value == WithImage(fetched.value, imageBase)
    ensures fetched.BackendFailed? && !Contains(fetched.text, Marker) ==>
      r.error.code == StatusInternalServerError && r.error.message == DefaultMessage(op)
    ensures fetched.BackendFailed? && PostgresToHTTPError(fetched.text) == Some(StatusNotFound) ==>
      r.error.code == StatusNotFound && r.error.message == ItemNotFound
    ensures fetched.BackendFailed? && PostgresToHTTPError(fetched.text) == Some(StatusBadRequest) ==>
      r.error.code == StatusBadRequest && r.error.message == DefaultMessage(op)
    ensures fetched.BackendFailed? ==> r.error.details == CallDetails(op, id, fetched.text)
    ensures fetched.BackendFailed? ==>
      && r.Err?
      && r.error.code == FailureStatus(fetched.text)
      && r.error.message == (if r.error.code == StatusNotFound then ItemNotFound else DefaultMessage(op))
    ensures fetched.Undecodable? ==>
      r.error == CustomError(StatusInternalServerError, ItemParseFailed, ParseDetails(op, id, fetched.reason))
  {
    match fetched
    case BackendFailed(text) =>
      Err(ClassifyBackendError(text, DefaultMessage(op), ItemNotFound, CallDetails(op, id, text)))
    case Undecodable(reason) =>
      Err(CustomError(StatusInternalServerError, ItemParseFailed, ParseDetails(op, id, reason)))
    case Decoded(item) => Ok(WithImage(item, imageBase))
  }

  /**
   * The outcome of `DeleteItem`, whose backend call returns nothing to
   * decode: `None` (a nil error) on success.
   */
  function DeleteCall(id: Int8, failure: Option<string>): (r: Option<CustomError>)
    ensures r.None? <==> failure.None?
    ensures failure.Some? && !Contains(failure.value, Marker) ==>
      r.value.code == StatusInternalServerError && r.value.message == DefaultMessage(Remove)
    ensures failure.Some? && PostgresToHTTPError(failure.value) == Some(StatusNotFound) ==>
      r.value.code == StatusNotFound && r.value.message == ItemNotFound
    ensures failure.Some? ==> r.value.details == CallDetails(Remove, id, failure.value)
    ensures failure.Some? ==>
      && r.Some?
      && r.value.code == FailureStatus(failure.value)
      && r.value.message == (if r.value.code == StatusNotFound then ItemNotFound else DefaultMessage(Remove))
  {
    match failure
    case None => None
    case Some(text) =>
      Some(ClassifyBackendError(text, DefaultMessage(Remove), ItemNotFound, CallDetails(Remove, id, text)))
  }

  /** What a write sends to the backend, and the operation's outcome. */
  datatype Write<P> = Write(sent: P, result: Result<Item, CustomError>)

  /** What a successful paged listing returns: the page's items and the total count. */
  datatype PageResult = PageResult(items: seq<Item>, count: nat)

  /** A paged listing's run: the queries it issued, in order, and its outcome. */
  datatype PagedRun = PagedRun(issued: seq<Query>, result: Result<PageResult, CustomError>)

  const CountFailed := "Failed to retrieve items"
  const PageOutOfRange := "Page out of range"
  const ItemsParseFailed := "Failed to parse items data"

  function RangeFailedMessage(page: int): string
  {
    "An error occurred while getting item page " + FormatInt(page)
  }

  function NoItemsMessage(page: int): string
  {
    "No items found for page " + FormatInt(page)
  }

  /**
   * The decision table of a paged listing: count the rows that pass
   * `countFilters`; a failed count is 500, and zero rows is an empty page
   * with no range query; a page past the last is 400; otherwise the range
   * query asks for the page's window of the rows passing `rangeFilters`,
   * and its failure is classified like any backend failure, its undecodable
   * answer is 500, and its rows are served with images beside the count.
   */
  predicate ListingDecides(
    countFilters: seq<Filter>, rangeFilters: seq<Filter>,
    page: int, pageSize: int,
    counted: Result<nat, string>, fetched: Fetch<seq<Item>>,
    imageBase: Option<string>, run: PagedRun)
    requires pageSize >= 1
  {
    var countQuery := CountExact(countFilters);
    && (counted.Err? ==>
          && run.issued == [countQuery]
          && run.result.Err?
          && run.result.error.code == StatusInternalServerError
          && run.result.error.message == CountFailed)
    && (counted == Ok(0) ==> run == PagedRun([countQuery], Ok(PageResult([], 0))))
    && (counted.Ok? && counted.value > 0 && page > LastPage(counted.value, pageSize) ==>
          && run.issued == [countQuery]
          && run.result.Err?
          && run.result.error.code == StatusBadRequest
          && run.result.error.message == PageOutOfRange)
    && (counted.Ok? && counted.value > 0 && page <= LastPage(counted.value, pageSize) ==>
          && run.issued == [countQuery, SelectRange(rangeFilters, PageWindow(page, pageSize, counted.value))]
          && (fetched.Decoded? ==>
                run.result == Ok(PageResult(WithImages(fetched.value, imageBase), counted.value)))
          && (fetched.BackendFailed? ==>
                && run.result.Err?
                && run.result.error.code == FailureStatus(fetched.text)
                && run.result.error.message
                   == (if run.result.error.code == StatusNotFound then NoItemsMessage(page)
                       else RangeFailedMessage(page)))
          && (fetched.Undecodable? ==>
                && run.result.Err?
                && run.result.error.code == StatusInternalServerError
                && run.result.error.message == ItemsParseFailed))
  }

  /**
   * The paged listing behind `GetPagedItems`, `PagedItemSearch` and the older
   * `getPagedItems`. `counted` and `fetched` are the backend's answers to the
   * two queries (`fetched` is ignored when the range query is not issued).
   */
  function PagedListing(
    countFilters: seq<Filter>, rangeFilters: seq<Filter>,
    page: int, pageSize: int,
    counted: Result<nat, string>, fetched: Fetch<seq<Item>>,
    imageBase: Option<string>): (run: PagedRun)
    requires pageSize >= 1
    ensures ListingDecides(countFilters, rangeFilters, page, pageSize, counted, fetched, imageBase, run)
    ensures |run.issued| >= 1 && run.issued[0] == CountExact(countFilters)
    ensures run.result.Ok? <==>
      counted.Ok? && (counted.value == 0 || (page <= LastPage(counted.value, pageSize) && fetched.Decoded?))
    ensures run.result.Ok? ==> run.result.value.count == counted.value
  {
    var countQuery := CountExact(countFilters);
    match counted
    case Err(text) =>
      PagedRun([countQuery], Err(CustomError(StatusInternalServerError, CountFailed,
        "Failed to retrieve item count: " + text)))
    case Ok(count) =>
      if count == 0 then PagedRun([countQuery], Ok(PageResult([], 0)))
      else if page > LastPage(count, pageSize) then
        PagedRun([countQuery], Err(CustomError(StatusBadRequest, PageOutOfRange,
          "Requested page " + FormatInt(page) + " with page size " + FormatInt(pageSize)
          + " is out of range for total items " + FormatInt(count))))
      else
        var issued := [countQuery, SelectRange(rangeFilters, PageWindow(page, pageSize, count))];
        match fetched
        case BackendFailed(text) =>
          PagedRun(issued, Err(ClassifyBackendError(text, RangeFailedMessage(page), NoItemsMessage(page),
            "Error retrieving items for page " + FormatInt(page) + ": " + text)))
        case Undecodable(reason) =>
          PagedRun(issued, Err(CustomError(StatusInternalServerError, ItemsParseFailed,
            "Error parsing items data for page " + FormatInt(page) + ": " + reason)))
        case Decoded(items) =>
          PagedRun(issued, Ok(PageResult(WithImages(items, imageBase), count)))
  }

  /** A served page with a decoded answer is that answer, with images, and the count. */
  lemma ServedListing(
    countFilters: seq<Filter>, rangeFilters: seq<Filter>, page: int, pageSize: int,
    count: nat, rows: seq<Item>, imageBase: Option<string>)
    requires ServedPage(page, pageSize, count)
    ensures PagedListing(countFilters, rangeFilters, page, pageSize, Ok(count), Decoded(rows), imageBase).result
         == Ok(PageResult(WithImages(rows, imageBase), count))
  {
  }

  /** Attaching images keeps every row's soft-delete mark. */
  lemma WithImagesKeepsDeletedAt(items: seq<Item>, imageBase: Option<string>)
    ensures forall i :: 0 <= i < |items| ==> WithImages(items, imageBase)[i].deletedAt == items[i].deletedAt
  {
  }
}

=== FILE: item_handlers.dfy ===
/**
 * The item handlers (`v1/items/handlers.go`): each parses its request, calls
 * its service (a parameter here) only when the request is valid, and maps
 * the outcome to a status and an envelope.
 */
module ItemHandlers {
  import opened Wrappers
  import opened Schemas
  import opened Utils
  import opened Responses
  import LegacyItemService
  import ItemCore

  /** The keys a client may never write. */
  const ProtectedFields := ["id", "created_at", "updated_at", "deleted_at"]

  /** The keys a create request must carry, as written. */
  const CreateRequiredFields := ["name", "description", "quantity", "price", "supplier_id", "category"]

  /** A JSON request body as `ShouldBindJSON` into a map leaves it. */
  datatype Body =
    | Malformed              // binding failed
    | JsonNull               // the body `null`: binding succeeds and leaves a nil map
    | Object(fields: Payload)

  const InvalidId := Failure(StatusBadRequest, "Invalid ID")
  const InvalidJson := Failure(StatusBadRequest, "Invalid JSON in body.")

  /** `GetItemHandler`, with `getItem` standing for the service `GetItem`. */
  function GetItemHandler(idParam: string, getItem: Int8 -> Result<Item, GoError>): (r: Reply)
    ensures GetIdFromContext(idParam).Err? ==> r == InvalidId
    ensures GetIdFromContext(idParam).Ok? ==>
      var out := getItem(GetIdFromContext(idParam).value);
      && (out.Ok? ==> r == Success(StatusOK, "Item retrieved successfully", Some(ItemData(out.value))))
      && (out.Err? ==> r == ErrorReply(out.error, "Failed to retrieve item"))
  {
    match GetIdFromContext(idParam)
    case Err(_) => InvalidId
    case Ok(id) =>
      match getItem(id)
      case Err(e) => ErrorReply(e, "Failed to retrieve item")
      case Ok(item) => Success(StatusOK, "Item retrieved successfully", Some(ItemData(item)))
  }

  /**
   * What `UpdateItemHandler` hands the service: the id and the body with the
   * protected keys stripped, or the reply it gives instead. A `null` body
   * reaches `UpdateItem` as a nil map, and the service's first write into it
   * panics.
   */
  function UpdateRequest(idParam: string, body: Body): (r: Result<(Int8, Payload), Reply>)
    ensures GetIdFromContext(idParam).Err? ==> r == Err(InvalidId)
    ensures GetIdFromContext(idParam).Ok? && body.Malformed? ==> r == Err(InvalidJson)
    ensures GetIdFromContext(idParam).Ok? && body.JsonNull? ==> r.Err? && r.error.Panic?
    ensures r.Ok? <==> GetIdFromContext(idParam).Ok? && body.Object?
    ensures r.Ok? ==>
      && r.value.0 == GetIdFromContext(idParam).value
      && r.value.1.Keys == body.fields.Keys - {"id", "created_at", "updated_at", "deleted_at"}
      && forall k :: k in r.value.1 ==> r.value.1[k] == body.fields[k]
  {
    match GetIdFromContext(idParam)
    case Err(_) => Err(InvalidId)
    case Ok(id) =>
      match body
      case Malformed => Err(InvalidJson)
      case JsonNull => Err(Panic("assignment to entry in nil map"))
      case Object(m) =>
        assert KeySet(ProtectedFields) == {"id", "created_at", "updated_at", "deleted_at"};
        Ok((id, RemoveProtectedFields(m, ProtectedFields)))
  }

  /** `UpdateItemHandler`, with `updateItem` standing for the service `UpdateItem`. */
  function UpdateItemHandler(idParam: string, body: Body, updateItem: (Int8, Payload) -> Result<Item, GoError>)
    : (r: Reply)
    ensures UpdateRequest(idParam, body).Err? ==> r == UpdateRequest(idParam, body).error
    ensures UpdateRequest(idParam, body).Ok? ==>
      var (id, m) := UpdateRequest(idParam, body).value;
      && (updateItem(id, m).Ok? ==>
            r == Success(StatusOK, "Item updated successfully", Some(ItemData(updateItem(id, m).value))))
      && (updateItem(id, m).Err? ==> r == ErrorReply(updateItem(id, m).error, "Failed to update item"))
  {
    match UpdateRequest(idParam, body)
    case Err(reply) => reply
    case Ok((id, m)) =>
      match updateItem(id, m)
      case Err(e) => ErrorReply(e, "Failed to update item")
      case Ok(item) => Success(StatusOK, "Item updated successfully", Some(ItemData(item)))
  }

  /** As written, the body `null` with a valid id panics instead of being rejected. */
  lemma NullUpdateBodyPanics(updateItem: (Int8, Payload) -> Result<Item, GoError>)
    ensures UpdateItemHandler("7", JsonNull, updateItem).Panic?
  {
    assert Text.Denotes("7", 7);
  }

  /** `UpdateRequest` corrected: the body `null` is rejected like a malformed body. */
  function UpdateRequestFixed(idParam: string, body: Body): (r: Result<(Int8, Payload), Reply>)
    ensures r.Err? ==> r.error.Respond? && r.error.status == StatusBadRequest
    ensures body.JsonNull? ==> r.Err?
    ensures r.Ok? ==> r == UpdateRequest(idParam, body)
    ensures !(GetIdFromContext(idParam).Ok? && body.JsonNull?) ==> r == UpdateRequest(idParam, body)
  {
    if GetIdFromContext(idParam).Ok? && body.JsonNull? then Err(InvalidJson)
    else UpdateRequest(idParam, body)
  }

  /** `UpdateItemHandler` with the corrected request stage. */
  function UpdateItemHandlerFixed(idParam: string, body: Body, updateItem: (Int8, Payload) -> Result<Item, GoError>)
    : (r: Reply)
    ensures body.JsonNull? ==> r.Respond? && r.status == StatusBadRequest
    ensures !body.JsonNull? ==> r == UpdateItemHandler(idParam, body, updateItem)
  {
    match UpdateRequestFixed(idParam, body)
    case Err(reply) => reply
    case Ok((id, m)) =>
      match updateItem(id, m)
      case Err(e) => ErrorReply(e, "Failed to update item")
      case Ok(item) => Success(StatusOK, "Item updated successfully", Some(ItemData(item)))
  }

  /**
   * Corrected, the update handler wired to the service it calls never
   * panics: no request reaches the nil-map write, and service errors are
   * pointers.
   */
  lemma {:induction false} FixedUpdateNeverPanics(idParam: string, body: Body, now: string, fetched: Fetch<Item>)
    ensures !UpdateItemHandlerFixed(idParam, body,
      (id: Int8, m: Payload) => Raise(LegacyItemService.UpdateItem(id, m, now, fetched).result)).Panic?
  {
  }

  /**
   * Whatever protected keys the client sends, the update that reaches the
   * backend carries none of `id`, `created_at`, `deleted_at`; its
   * `updated_at` is the server's clock reading; every other client key
   * passes unchanged.
   */
  lemma {:induction false} UpdateSendsServerTimestampOnly(idParam: string, fields: Payload, now: string, fetched: Fetch<Item>)
    requires UpdateRequest(idParam, Object(fields)).Ok?
    ensures var (id, m) := UpdateRequest(idParam, Object(fields)).value;
            var sent := LegacyItemService.UpdateItem(id, m, now, fetched).sent;
            && "id" !in sent && "created_at" !in sent && "deleted_at" !in sent
            && sent["updated_at"] == JString(now)
            && forall k :: k in fields && k !in ProtectedFields ==> k in sent && sent[k] == fields[k]
  {
    var (id, m) := UpdateRequest(idParam, Object(fields)).value;
    var sent := LegacyItemService.UpdateItem(id, m, now, fetched).sent;
    forall k | k in fields && k !in ProtectedFields
      ensures k in sent && sent[k] == fields[k]
    {
      assert k != "updated_at";
      assert k in m;
    }
  }

  /**
   * The type assertions of `CreateItemHandler`'s item literal, in field
   * order: a missing key or a value of another JSON type panics. The
   * float-to-`int8` conversion enters as `narrow`.
   */
  function BuildItem(m: Payload, narrow: real -> Int8): (r: Result<Item, string>)
    ensures r.Ok? <==>
      && "name" in m && m["name"].JString?
      && "description" in m && m["description"].JString?
      && "quantity" in m && m["quantity"].JNumber?
      && "purchase_price" in m && m["purchase_price"].JNumber?
      && "supplier_id" in m && m["supplier_id"].JNumber?
      && "category" in m && m["category"].JString?
    ensures r.Ok? ==>
      && r.value.name == m["name"].s
      && r.value.description == m["description"].s
      && r.value.quantity == narrow(m["quantity"].x)
      && r.value.purchasePrice == m["purchase_price"].x
      && r.value.supplierId == narrow(m["supplier_id"].x)
      && r.value.category == m["category"].s
      && r.value.createdAt == "" && r.value.updatedAt == "" && r.value.imageUrl.None?
      && r.value.id == 0 && r.value.notes == "" && r.value.deletedAt.None?
  {
    if !("name" in m && m["name"].JString?) then Err("name")
    else if !("description" in m && m["description"].JString?) then Err("description")
    else if !("quantity" in m && m["quantity"].JNumber?) then Err("quantity")
    else if !("purchase_price" in m && m["purchase_price"].JNumber?) then Err("purchase_price")
    else if !("supplier_id" in m && m["supplier_id"].JNumber?) then Err("supplier_id")
    else if !("category" in m && m["category"].JString?) then Err("category")
    else
      Ok(Item(0, m["name"].s, m["description"].s, m["purchase_price"].x, narrow(m["quantity"].x),
              m["category"].s, None, narrow(m["supplier_id"].x), "", "", "", None))
  }

  /**
   * What `CreateItemHandler` hands the service, or the reply it gives
   * instead, for a given list of required keys.
   */
  function CreateRequest(body: Body, required: seq<string>, narrow: real -> Int8): (r: Result<Item, Reply>)
    ensures body.Malformed? ==> r == Err(InvalidJson)
    ensures body.JsonNull? && |required| > 0 ==>
      r == Err(Failure(StatusBadRequest, MissingFieldMessage(required[0])))
    ensures body.Object? && CheckRequiredFields(body.fields, required).Some? ==>
      r == Err(Failure(StatusBadRequest, CheckRequiredFields(body.fields, required).value))
    ensures body.Object? && CheckRequiredFields(body.fields, required).None? ==>
      && (BuildItem(body.fields, narrow).Ok? ==> r == Ok(BuildItem(body.fields, narrow).value))
      && (BuildItem(body.fields, narrow).Err? ==> r.Err? && r.error.Panic?)
    ensures body.JsonNull? && |required| == 0 ==> r.Err? && r.error.Panic?
    ensures r.Ok? ==> body.Object? && BuildItem(body.fields, narrow) == Ok(r.value)
  {
    var fields := match body case Object(m) => m case _ => map[];
    if body.Malformed? then Err(InvalidJson)
    else
      match CheckRequiredFields(fields, required)
      case Some(message) => Err(Failure(StatusBadRequest, message))
      case None =>
        match BuildItem(fields, narrow)
        case Err(key) => Err(Panic("interface conversion: interface {} is not the expected type at " + key))
        case Ok(item) => Ok(item)
  }

  /** How `CreateItemHandler` answers, given what its request stage produced. */
  function CreateReply(request: Result<Item, Reply>, createItem: Item -> Result<Item, GoError>): (r: Reply)
    ensures request.Err? ==> r == request.error
    ensures request.Ok? && createItem(request.value).Err? ==>
      r == ErrorReply(createItem(request.value).error, "Failed to create item")
    ensures request.Ok? && createItem(request.value).Ok? ==>
      r == Success(StatusCreated, "Item created successfully", Some(ItemData(createItem(request.value).value)))
  {
    match request
    case Err(reply) => reply
    case Ok(item) =>
      match createItem(item)
      case Err(e) => ErrorReply(e, "Failed to create item")
      case Ok(created) => Success(StatusCreated, "Item created successfully", Some(ItemData(created)))
  }

  /** `CreateItemHandler` as written, with `createItem` standing for the service `CreateItem`. */
  function CreateItemHandler(body: Body, narrow: real -> Int8, createItem: Item -> Result<Item, GoError>)
    : (r: Reply)
    ensures r.Respond? && r.body.success ==> r.status == StatusCreated
    ensures body.Malformed? ==> r == InvalidJson
    ensures body.JsonNull? ==> r == Failure(StatusBadRequest, MissingFieldMessage(CreateRequiredFields[0]))
    ensures body.Object? && CheckRequiredFields(body.fields, CreateRequiredFields).Some? ==>
      r == Failure(StatusBadRequest, CheckRequiredFields(body.fields, CreateRequiredFields).value)
    ensures body.Object? && CheckRequiredFields(body.fields, CreateRequiredFields).None? ==>
      var built := BuildItem(body.fields, narrow);
      && (built.Err? ==> r.Panic?)
      && (built.Ok? && createItem(built.value).Err? ==>
            r == ErrorReply(createItem(built.value).error, "Failed to create item"))
      && (built.Ok? && createItem(built.value).Ok? ==>
            r == Success(StatusCreated, "Item created successfully", Some(ItemData(createItem(built.value).value))))
  {
    CreateReply(CreateRequest(body, CreateRequiredFields, narrow), createItem)
  }

  /**
   * As written, a body with every required key, each of the right type, but
   * without `purchase_price` passes the required-key gate and then panics
   * when the handler reads `purchase_price`.
   */
  lemma MissingPurchasePricePanics(narrow: real -> Int8, createItem: Item -> Result<Item, GoError>)
    ensures var body := map["name" := JString("bolt"), "description" := JString("M6"),
                             "quantity" := JNumber(3.0), "price" := JNumber(1.5),
                             "supplier_id" := JNumber(1.0), "category" := JString("hardware")];
            && CheckRequiredFields(body, CreateRequiredFields).None?
            && CreateItemHandler(Object(body), narrow, createItem).Panic?
  {
    var body := map["name" := JString("bolt"), "description" := JString("M6"),
                    "quantity" := JNumber(3.0), "price" := JNumber(1.5),
                    "supplier_id" := JNumber(1.0), "category" := JString("hardware")];
    assert forall i :: 0 <= i < |CreateRequiredFields| ==> CreateRequiredFields[i] in body;
    assert "purchase_price" !in body;
  }

  /** The required keys corrected: the key the handler reads, `purchase_price`, instead of `price`. */
  const CreateRequiredFieldsFixed := ["name", "description", "quantity", "purchase_price", "supplier_id", "category"]

  /** `CreateItemHandler` with the corrected required keys. */
  function CreateItemHandlerFixed(body: Body, narrow: real -> Int8, createItem: Item -> Result<Item, GoError>)
    : (r: Reply)
    ensures body.Object? && "purchase_price" !in body.fields ==> r.Respond? && r.status == StatusBadRequest
    ensures r.Respond? && r.body.success ==> r.status == StatusCreated
    ensures body.Object? && CheckRequiredFields(body.fields, CreateRequiredFieldsFixed).None?
            && BuildItem(body.fields, narrow).Ok? ==>
      r == CreateReply(Ok(BuildItem(body.fields, narrow).value), createItem)
    ensures !body.Object? || ("price" in body.fields && "purchase_price" in body.fields) ==>
      r == CreateItemHandler(body, narrow, createItem)
  {
    CreateReply(CreateRequest(body, CreateRequiredFieldsFixed, narrow), createItem)
  }

  /**
   * Corrected, a missing key never panics: it is answered with 400 naming
   * the first missing key. A panic is left only for a present key whose
   * value has the wrong JSON type.
   */
  lemma {:induction false} FixedCreateRejectsMissingKeys(
    body: Body, narrow: real -> Int8, createItem: Item -> Result<Item, GoError>)
    ensures CreateItemHandlerFixed(body, narrow, createItem).Panic? ==>
      body.Object? && forall i :: 0 <= i < |CreateRequiredFieldsFixed| ==> CreateRequiredFieldsFixed[i] in body.fields
    ensures body.Object? && (exists i :: 0 <= i < |CreateRequiredFieldsFixed| && CreateRequiredFieldsFixed[i] !in body.fields) ==>
      var r := CreateItemHandlerFixed(body, narrow, createItem);
      r.Respond? && r.status == StatusBadRequest && !r.body.success
  {
  }

  /** `DeleteItemHandler`, with `deleteItem` standing for the service `DeleteItem`. */
  function DeleteItemHandler(idParam: string, deleteItem: Int8 -> Option<GoError>): (r: Reply)
    ensures GetIdFromContext(idParam).Err? ==> r == InvalidId
    ensures GetIdFromContext(idParam).Ok? ==>
      var out := deleteItem(GetIdFromContext(idParam).value);
      && (out.None? ==> r == Success(StatusOK, "Item deleted successfully", None))
      && (out.Some? ==> r == ErrorReply(out.value, "Failed to delete item"))
  {
    match GetIdFromContext(idParam)
    case Err(_) => InvalidId
    case Ok(id) =>
      match deleteItem(id)
      case Some(e) => ErrorReply(e, "Failed to delete item")
      case None => Success(StatusOK, "Item deleted successfully", None)
  }

  /** A page size the handler has validated. */
  type PageSize = n: int | n >= 1 witness 1

  /**
   * `GetPagedItemsHandler`: the page is checked first, then the page size,
   * each as parsed by `strconv.Atoi` (`None` when it fails); the service
   * `getPagedItems` is called only with both at least 1.
   */
  function GetPagedItemsHandler(
    page: Option<int>, pageSize: Option<int>,
    getPagedItems: (int, PageSize) -> Result<ItemCore.PageResult, GoError>): (r: Reply)
    ensures (page.None? || page.value < 1) ==> r == Failure(StatusBadRequest, "Invalid page number")
    ensures page.Some? && page.value >= 1 && (pageSize.None? || pageSize.value < 1) ==>
      r == Failure(StatusBadRequest, "Invalid page size")
    ensures page.Some? && page.value >= 1 && pageSize.Some? && pageSize.value >= 1 ==>
      var out := getPagedItems(page.value, pageSize.value);
      && (out.Ok? ==> r == Success(StatusOK, "Paged items retrieved successfully",
                                   Some(PagedItemsData(out.value.count, page.value, pageSize.value, out.value.items))))
      && (out.Err? ==> r == ErrorReply(out.error, "Failed to retrieve paged items"))
  {
    if page.None? || page.value < 1 then Failure(StatusBadRequest, "Invalid page number")
    else if pageSize.None? || pageSize.value < 1 then Failure(StatusBadRequest, "Invalid page size")
    else
      match getPagedItems(page.value, pageSize.value)
      case Err(e) => ErrorReply(e, "Failed to retrieve paged items")
      case Ok(result) =>
        Success(StatusOK, "Paged items retrieved successfully",
                Some(PagedItemsData(result.count, page.value, pageSize.value, result.items)))
  }

  /** An invalid id is answered without consulting the service: any two services give the same reply. */
  lemma InvalidIdSkipsService(
    idParam: string, body: Body,
    get1: Int8 -> Result<Item, GoError>, get2: Int8 -> Result<Item, GoError>,
    upd1: (Int8, Payload) -> Result<Item, GoError>, upd2: (Int8, Payload) -> Result<Item, GoError>,
    del1: Int8 -> Option<GoError>, del2: Int8 -> Option<GoError>)
    requires GetIdFromContext(idParam).Err?
    ensures GetItemHandler(idParam, get1) == GetItemHandler(idParam, get2) == InvalidId
    ensures UpdateItemHandler(idParam, body, upd1) == UpdateItemHandler(idParam, body, upd2) == InvalidId
    ensures DeleteItemHandler(idParam, del1) == DeleteItemHandler(idParam, del2) == InvalidId
  {
  }

  /** An invalid page or page size is answered without consulting the service. */
  lemma InvalidPagingSkipsService(
    page: Option<int>, pageSize: Option<int>,
    s1: (int, PageSize) -> Result<ItemCore.PageResult, GoError>,
    s2: (int, PageSize) -> Result<ItemCore.PageResult, GoError>)
    requires page.None? || page.value < 1 || pageSize.None? || pageSize.value < 1
    ensures GetPagedItemsHandler(page, pageSize, s1) == GetPagedItemsHandler(page, pageSize, s2)
    ensures GetPagedItemsHandler(page, pageSize, s1).status == StatusBadRequest
  {
  }

  /**
   * Wired to the services they call, the handlers never reach the panic of
   * the `*CustomError` assertion: every service error is a pointer. This one
   * is `GetItemHandler`.
   */
  lemma {:induction false} WiredGetNeverPanics(idParam: string, fetched: Fetch<Item>)
    ensures !GetItemHandler(idParam, (id: Int8) => Raise(LegacyItemService.GetItem(id, fetched))).Panic?
  {
    var get := (id: Int8) => Raise(LegacyItemService.GetItem(id, fetched));
    if GetIdFromContext(idParam).Ok? {
      var out := get(GetIdFromContext(idParam).value);
      assert out.Err? ==> out.error.CustomPointer?;
    }
  }

  /** `DeleteItemHandler` wired to `DeleteItem` never panics. */
  lemma {:induction false} WiredDeleteNeverPanics(idParam: string, failure: Option<string>)
    ensures !DeleteItemHandler(idParam, (id: Int8) => RaiseOption(LegacyItemService.DeleteItem(id, failure))).Panic?
  {
    var del := (id: Int8) => RaiseOption(LegacyItemService.DeleteItem(id, failure));
    if GetIdFromContext(idParam).Ok? {
      var out := del(GetIdFromContext(idParam).value);
      assert out.Some? ==> out.value.CustomPointer?;
    }
  }

  /** `GetPagedItemsHandler` wired to `getPagedItems` never panics. */
  lemma {:induction false} WiredListNeverPanics(
    page: Option<int>, pageSize: Option<int>, counted: Result<nat, string>, rows: Fetch<seq<Item>>)
    ensures !GetPagedItemsHandler(page, pageSize,
      (p, ps: PageSize) => Raise(LegacyItemService.GetPagedItems(p, ps, counted, rows).result)).Panic?
  {
    var list := (p, ps: PageSize) => Raise(LegacyItemService.GetPagedItems(p, ps, counted, rows).result);
    if page.Some? && page.value >= 1 && pageSize.Some? && pageSize.value >= 1 {
      var out := list(page.value, pageSize.value);
      assert out.Err? ==> out.error.CustomPointer?;
    }
  }

}

=== FILE: item_service.dfy ===
/**
 * The newer items service (`v1/routes/items`): single-item operations that
 * stamp timestamps and attach image URLs, the paged listing and the paged
 * name search. The backend's answers are inputs; so are the clock readings
 * and the storage base URL.
 */
module ItemService {
  import opened Wrappers
  import opened Schemas
  import opened Paging
  import opened Queries
  import opened Classify
  import opened ItemCore

  /** `GetItem`: a found item comes back with its image URL and otherwise unchanged. */
  function GetItem(id: Int8, fetched: Fetch<Item>, baseUrl: string): (r: Result<Item, CustomError>)
    ensures r.Ok? <==> fetched.Decoded?
    ensures r.Ok? ==> r.value.imageUrl == Some(GetItemImage(baseUrl, fetched.value.id))
    ensures r.Ok? ==> r.value.(imageUrl := fetched.value.imageUrl) == fetched.value
    ensures fetched.BackendFailed? ==>
      && r.Err?
      && r.error.code == FailureStatus(fetched.text)
      && r.error.message == (if r.error.code == StatusNotFound then "Item not found" else "An error occurred while retrieving the item")
    ensures fetched.Undecodable? ==>
      r.Err? && r.error.code == StatusInternalServerError && r.error.message == "Failed to parse item data"
  {
    ItemCall(Retrieve, id, fetched, Some(baseUrl))
  }

  /**
   * `UpdateItem`: `updated_at` is written into the caller's map, whatever the
   * client sent for it, and the map is sent as the update.
   */
  function UpdateItem(id: Int8, updates: Payload, now: string, fetched: Fetch<Item>, baseUrl: string)
    : (w: Write<Payload>)
    ensures w.sent.Keys == updates.Keys + {"updated_at"}
    ensures w.sent["updated_at"] == JString(now)
    ensures forall k :: k in updates && k != "updated_at" ==> w.sent[k] == updates[k]
    ensures w.result.Ok? <==> fetched.Decoded?
    ensures w.result.Ok? ==> w.result.value.imageUrl == Some(GetItemImage(baseUrl, fetched.value.id))
    ensures w.result.Ok? ==> w.result.value.(imageUrl := fetched.value.imageUrl) == fetched.value
    ensures fetched.BackendFailed? ==>
      && w.result.Err?
      && w.result.error.code == FailureStatus(fetched.text)
      && w.result.error.message == (if w.result.error.code == StatusNotFound then "Item not found" else "An error occurred while updating the item")
    ensures fetched.Undecodable? ==>
      w.result.Err? && w.result.error.code == StatusInternalServerError && w.result.error.message == "Failed to parse item data"
  {
    Write(updates["updated_at" := JString(now)], ItemCall(Modify, id, fetched, Some(baseUrl)))
  }

  /**
   * `CreateItem`: both timestamps are overwritten with the clock readings
   * (two separate readings) before the insert; nothing else changes.
   */
  function CreateItem(item: Item, createdNow: string, updatedNow: string, fetched: Fetch<Item>, baseUrl: string)
    : (w: Write<Item>)
    ensures w.sent.createdAt == createdNow && w.sent.updatedAt == updatedNow
    ensures w.sent.(createdAt := item.createdAt, updatedAt := item.updatedAt) == item
    ensures w.result.Ok? <==> fetched.Decoded?
    ensures w.result.Ok? ==> w.result.value.imageUrl == Some(GetItemImage(baseUrl, fetched.value.id))
    ensures w.result.Ok? ==> w.result.value.(imageUrl := fetched.value.imageUrl) == fetched.value
    ensures fetched.BackendFailed? ==>
      && w.result.Err?
      && w.result.error.code == FailureStatus(fetched.text)
      && w.result.error.message == (if w.result.error.code == StatusNotFound then "Item not found" else "An error occurred while creating the item")
    ensures fetched.Undecodable? ==>
      w.result.Err? && w.result.error.code == StatusInternalServerError && w.result.error.message == "Failed to parse item data"
  {
    Write(item.(createdAt := createdNow, updatedAt := updatedNow), ItemCall(Insert, item.id, fetched, Some(baseUrl)))
  }

  /** `DeleteItem`: its default message speaks of updating, not deleting. */
  function DeleteItem(id: Int8, failure: Option<string>): (r: Option<CustomError>)
    ensures r.None? <==> failure.None?
    ensures failure.Some? ==>
      && r.Some?
      && r.value.code == FailureStatus(failure.value)
      && r.value.message
         == (if r.value.code == StatusNotFound then "Item not found" else "An error occurred while updating the item")
  {
    DeleteCall(id, failure)
  }

  /** The count query of `GetPagedItems` skips soft-deleted rows ... */
  const ListCountFilters: seq<Filter> := [DeletedAtIsNull]
  /** ... but its range query does not. */
  const ListRangeFilters: seq<Filter> := []

  /**
   * `GetPagedItems`, as written: the count skips soft-deleted rows but the
   * range query selects from all rows.
   */
  function GetPagedItems(
    page: int, pageSize: int, counted: Result<nat, string>, fetched: Fetch<seq<Item>>, baseUrl: string)
    : (run: PagedRun)
    requires pageSize >= 1
    ensures ListingDecides([DeletedAtIsNull], [], page, pageSize, counted, fetched, Some(baseUrl), run)
    ensures |run.issued| >= 1 && run.issued[0] == CountExact([DeletedAtIsNull])
    ensures |run.issued| == 2 ==> run.issued[1].SelectRange? && DeletedAtIsNull !in run.issued[1].filters
    ensures counted == Ok(0) ==> run == PagedRun([CountExact([DeletedAtIsNull])], Ok(PageResult([], 0)))
    ensures run.result.Ok? ==> forall i :: 0 <= i < |run.result.value.items| ==>
      run.result.value.items[i].imageUrl == Some(GetItemImage(baseUrl, run.result.value.items[i].id))
  {
    PagedListing(ListCountFilters, ListRangeFilters, page, pageSize, counted, fetched, Some(baseUrl))
  }

  /**
   * `PagedItemSearch`: the same listing restricted to names matching
   * `"%" + name + "%"`; again only the count skips soft-deleted rows.
   */
  function PagedItemSearch(
    name: string, page: int, pageSize: int,
    counted: Result<nat, string>, fetched: Fetch<seq<Item>>, baseUrl: string)
    : (run: PagedRun)
    requires pageSize >= 1
    ensures ListingDecides([NameILike(SearchPattern(name)), DeletedAtIsNull], [NameILike(SearchPattern(name))],
                           page, pageSize, counted, fetched, Some(baseUrl), run)
    ensures |run.issued| >= 1 && run.issued[0] == CountExact([NameILike(SearchPattern(name)), DeletedAtIsNull])
    ensures |run.issued| == 2 ==>
      counted.Ok? && run.issued[1] == SelectRange([NameILike(SearchPattern(name))],
                                   PageWindow(page, pageSize, counted.value))
    ensures counted == Ok(0) ==> run.result == Ok(PageResult([], 0)) && |run.issued| == 1
    ensures counted.Ok? && counted.value > 0 && page > LastPage(counted.value, pageSize) ==>
      run.result.Err? && run.result.error.code == StatusBadRequest
  {
    var pattern := SearchPattern(name);
    PagedListing([NameILike(pattern), DeletedAtIsNull], [NameILike(pattern)],
                 page, pageSize, counted, fetched, Some(baseUrl))
  }

  /** Name matching for listings without a name filter; it is never consulted. */
  const AnyName: (string, string) -> bool := (name: string, pattern: string) => true

  /** `GetPagedItems` against a backend that answers both of its queries from `table`. */
  function GetPagedItemsFrom(table: seq<Item>, page: int, pageSize: int, baseUrl: string): PagedRun
    requires pageSize >= 1
  {
    var count := |Select(table, ListCountFilters, AnyName)|;
    var rows := Slice(Select(table, ListRangeFilters, AnyName), PageWindow(page, pageSize, count));
    GetPagedItems(page, pageSize, Ok(count), Decoded(rows), baseUrl)
  }

  /**
   * As written, a soft-deleted row is served: with one deleted row ahead of
   * one live row, the count is 1, page 1 selects offset 0 of all rows, and
   * the deleted row comes back while the live row is on no page.
   */
  lemma DeletedRowsLeakIntoPages(baseUrl: string)
    ensures var deleted := Item(1, "a", "", 0.0, 1, "", None, 1, "", "t0", "t0", Some("t1"));
            var live := Item(2, "b", "", 0.0, 1, "", None, 1, "", "t0", "t0", None);
            var run := GetPagedItemsFrom([deleted, live], 1, 10, baseUrl);
            && run.result.Ok?
            && run.result.value.count == 1
            && |run.result.value.items| == 1
            && run.result.value.items[0].deletedAt.Some?
  {
    var deleted := Item(1, "a", "", 0.0, 1, "", None, 1, "", "t0", "t0", Some("t1"));
    var live := Item(2, "b", "", 0.0, 1, "", None, 1, "", "t0", "t0", None);
    var table := [deleted, live];
    assert table == [deleted] + [live];
    assert !Keeps(deleted, ListCountFilters[0], AnyName);
    assert PassesAll(live, ListCountFilters, AnyName);
    SelectAppend([deleted], [live], ListCountFilters, AnyName);
    assert Select(table, ListCountFilters, AnyName) == [live];
    SelectAppend([deleted], [live], ListRangeFilters, AnyName);
    assert Select(table, ListRangeFilters, AnyName) == table;
    assert LastPage(1, 10) == 1;
    assert PageWindow(1, 10, 1) == Window(0, 0);
    var rows := Slice(table, Window(0, 0));
    assert rows == [deleted];
    ServedListing(ListCountFilters, ListRangeFilters, 1, 10, 1, rows, Some(baseUrl));
    WithImagesKeepsDeletedAt(rows, Some(baseUrl));
  }

  /**
   * `GetPagedItems` corrected: the range query skips soft-deleted rows as the
   * count does.
   */
  function GetPagedItemsLive(
    page: int, pageSize: int, counted: Result<nat, string>, fetched: Fetch<seq<Item>>, baseUrl: string)
    : (run: PagedRun)
    requires pageSize >= 1
    ensures |run.issued| >= 1 && run.issued[0] == CountExact([DeletedAtIsNull])
    ensures |run.issued| == 2 ==> run.issued[1].SelectRange? && run.issued[1].filters == [DeletedAtIsNull]
    ensures ListingDecides([DeletedAtIsNull], [DeletedAtIsNull], page, pageSize, counted, fetched, Some(baseUrl), run)
  {
    PagedListing(ListCountFilters, ListCountFilters, page, pageSize, counted, fetched, Some(baseUrl))
  }

  /** The rows that are not soft-deleted, in table order. */
  function LiveRows(table: seq<Item>): (r: seq<Item>)
    ensures forall i :: 0 <= i < |r| ==> r[i].deletedAt.None?
  {
    var r := Select(table, ListCountFilters, AnyName);
    assert forall i :: 0 <= i < |r| ==> Keeps(r[i], ListCountFilters[0], AnyName);
    r
  }

  /** The live rows are exactly the table's rows that are not soft-deleted. */
  lemma LiveRowsExact(table: seq<Item>)
    ensures forall x :: x in LiveRows(table) ==> x in table && x.deletedAt.None?
    ensures forall i :: 0 <= i < |table| && table[i].deletedAt.None? ==> table[i] in LiveRows(table)
  {
    assert forall i :: 0 <= i < |table| && table[i].deletedAt.None? ==> PassesAll(table[i], ListCountFilters, AnyName);
  }

  /** The live rows keep the table's order: they split where the table splits. */
  lemma LiveRowsAppend(a: seq<Item>, b: seq<Item>)
    ensures LiveRows(a + b) == LiveRows(a) + LiveRows(b)
  {
    SelectAppend(a, b, ListCountFilters, AnyName);
  }

  /** The corrected listing against a backend that answers both queries from `table`. */
  function GetPagedItemsLiveFrom(table: seq<Item>, page: int, pageSize: int, baseUrl: string): PagedRun
    requires pageSize >= 1
  {
    var count := |LiveRows(table)|;
    var rows := Slice(LiveRows(table), PageWindow(page, pageSize, count));
    GetPagedItemsLive(page, pageSize, Ok(count), Decoded(rows), baseUrl)
  }

  /**
   * The corrected listing over any rows that are all live: a served page is
   * its window of those rows with images, and holds no deleted row.
   */
  lemma {:induction false} ServedWindowOfLive(live: seq<Item>, page: int, pageSize: int, baseUrl: string)
    requires ServedPage(page, pageSize, |live|)
    requires forall i :: 0 <= i < |live| ==> live[i].deletedAt.None?
    ensures var w := PageWindow(page, pageSize, |live|);
            var run := GetPagedItemsLive(page, pageSize, Ok(|live|), Decoded(Slice(live, w)), baseUrl);
            && 0 <= w.first <= w.last < |live|
            && run.result == Ok(PageResult(WithImages(live[w.first..w.last + 1], Some(baseUrl)), |live|))
            && forall i :: 0 <= i < |run.result.value.items| ==> run.result.value.items[i].deletedAt.None?
  {
    var count := |live|;
    WindowBounds(page, pageSize, count);
    var w := PageWindow(page, pageSize, count);
    var rows := Slice(live, w);
    assert rows == live[w.first..w.last + 1];
    ServedListing(ListCountFilters, ListCountFilters, page, pageSize, count, rows, Some(baseUrl));
    var items := WithImages(rows, Some(baseUrl));
    WithImagesKeepsDeletedAt(rows, Some(baseUrl));
    forall i | 0 <= i < |items|
      ensures items[i].deletedAt.None?
    {
      assert items[i].deletedAt == rows[i].deletedAt == live[w.first + i].deletedAt;
    }
  }

  /** A served page of the corrected listing holds exactly its window of the live rows. */
  lemma {:induction false} LivePageIsWindowOfLiveRows(table: seq<Item>, page: int, pageSize: int, baseUrl: string)
    requires ServedPage(page, pageSize, |LiveRows(table)|)
    ensures var run := GetPagedItemsLiveFrom(table, page, pageSize, baseUrl);
            var live := LiveRows(table);
            var w := PageWindow(page, pageSize, |live|);
            && 0 <= w.first <= w.last < |live|
            && run.result.Ok?
            && run.result.value.count == |live|
            && run.result.value.items == WithImages(live[w.first..w.last + 1], Some(baseUrl))
            && forall i :: 0 <= i < |run.result.value.items| ==> run.result.value.items[i].deletedAt.None?
  {
    var live := LiveRows(table);
    var w := PageWindow(page, pageSize, |live|);
    ServedWindowOfLive(live, page, pageSize, baseUrl);
    assert GetPagedItemsLiveFrom(table, page, pageSize, baseUrl)
        == GetPagedItemsLive(page, pageSize, Ok(|live|), Decoded(Slice(live, w)), baseUrl);
  }

  /** The items of the corrected listing's pages `1..n`, page after page. */
  function LivePagesUpTo(table: seq<Item>, pageSize: int, baseUrl: string, n: nat): seq<Item>
    requires pageSize >= 1
  {
    if n == 0 then []
    else
      var run := GetPagedItemsLiveFrom(table, n, pageSize, baseUrl);
      LivePagesUpTo(table, pageSize, baseUrl, n - 1) + (if run.result.Ok? then run.result.value.items else [])
  }

  /**
   * Corrected, the listing's pages tile the live rows: reading pages
   * `1..LastPage` in turn yields every live row once, in order, and nothing
   * else.
   */
  lemma {:induction false} LivePagesTileLiveRows(table: seq<Item>, pageSize: int, baseUrl: string)
    requires pageSize >= 1 && |LiveRows(table)| > 0
    ensures LivePagesUpTo(table, pageSize, baseUrl, LastPage(|LiveRows(table)|, pageSize))
         == WithImages(LiveRows(table), Some(baseUrl))
  {
    var live := LiveRows(table);
    var L := LastPage(|live|, pageSize);
    LivePagesMatchSlices(table, pageSize, baseUrl, L);
    PagesTile(live, pageSize);
  }

  /** Pages `1..n` of the corrected listing are the live rows' pages with images attached. */
  lemma {:induction false} LivePagesMatchSlices(table: seq<Item>, pageSize: int, baseUrl: string, n: nat)
    requires pageSize >= 1 && |LiveRows(table)| > 0 && n <= LastPage(|LiveRows(table)|, pageSize)
    ensures LivePagesUpTo(table, pageSize, baseUrl, n) == WithImages(PagesUpTo(LiveRows(table), pageSize, n), Some(baseUrl))
  {
    if n > 0 {
      var live := LiveRows(table);
      var w := PageWindow(n, pageSize, |live|);
      var before := PagesUpTo(live, pageSize, n - 1);
      LivePagesMatchSlices(table, pageSize, baseUrl, n - 1);
      LivePageIsWindowOfLiveRows(table, n, pageSize, baseUrl);
      var run := GetPagedItemsLiveFrom(table, n, pageSize, baseUrl);
      assert run.result.value.items == WithImages(Slice(live, w), Some(baseUrl));
      assert LivePagesUpTo(table, pageSize, baseUrl, n)
          == WithImages(before, Some(baseUrl)) + run.result.value.items;
      assert PagesUpTo(live, pageSize, n) == before + Slice(live, w);
      WithImagesAppend(before, Slice(live, w), Some(baseUrl));
    }
  }
}

=== FILE: legacy_item_service.dfy ===
/**
 * The older items service (`v1/items`), which the item handlers call. Its
 * operations classify errors exactly as the newer copy does but never set an
 * image URL: a decoded row is returned as decoded.
 */
module LegacyItemService {
  import opened Wrappers
  import opened Schemas
  import opened Paging
  import opened Queries
  import opened Classify
  import opened ItemCore

  /** `GetItem`: the decoded row, untouched, or the classified failure. */
  function GetItem(id: Int8, fetched: Fetch<Item>): (r: Result<Item, CustomError>)
    ensures r.Ok? <==> fetched.Decoded?
    ensures r.Ok? ==> r.value == fetched.value
    ensures fetched.BackendFailed? ==>
      && r.Err?
      && r.error.code == FailureStatus(fetched.text)
      && r.error.message == (if r.error.code == StatusNotFound then "Item not found" else "An error occurred while retrieving the item")
    ensures fetched.Undecodable? ==>
      r.Err? && r.error.code == StatusInternalServerError && r.error.message == "Failed to parse item data"
  {
    ItemCall(Retrieve, id, fetched, None)
  }

  /** `UpdateItem`: stamps `updated_at` into the caller's map, whatever the client sent. */
  function UpdateItem(id: Int8, updates: Payload, now: string, fetched: Fetch<Item>): (w: Write<Payload>)
    ensures w.sent.Keys == updates.Keys + {"updated_at"}
    ensures w.sent["updated_at"] == JString(now)
    ensures forall k :: k in updates && k != "updated_at" ==> w.sent[k] == updates[k]
    ensures w.result.Ok? <==> fetched.Decoded?
    ensures w.result.Ok? ==> w.result.value == fetched.value
    ensures fetched.BackendFailed? ==>
      && w.result.Err?
      && w.result.error.code == FailureStatus(fetched.text)
      && w.result.error.message == (if w.result.error.code == StatusNotFound then "Item not found" else "An error occurred while updating the item")
    ensures fetched.Undecodable? ==>
      w.result.Err? && w.result.error.code == StatusInternalServerError && w.result.error.message == "Failed to parse item data"
  {
    Write(updates["updated_at" := JString(now)], ItemCall(Modify, id, fetched, None))
  }

  /** `CreateItem`: both timestamps overwritten by the clock readings; nothing else changes. */
  function CreateItem(item: Item, createdNow: string, updatedNow: string, fetched: Fetch<Item>)
    : (w: Write<Item>)
    ensures w.sent.createdAt == createdNow && w.sent.updatedAt == updatedNow
    ensures w.sent.(createdAt := item.createdAt, updatedAt := item.updatedAt) == item
    ensures w.result.Ok? <==> fetched.Decoded?
    ensures w.result.Ok? ==> w.result.value == fetched.value
    ensures fetched.BackendFailed? ==>
      && w.result.Err?
      && w.result.error.code == FailureStatus(fetched.text)
      && w.result.error.message == (if w.result.error.code == StatusNotFound then "Item not found" else "An error occurred while creating the item")
    ensures fetched.Undecodable? ==>
      w.result.Err? && w.result.error.code == StatusInternalServerError && w.result.error.message == "Failed to parse item data"
  {
    Write(item.(createdAt := createdNow, updatedAt := updatedNow), ItemCall(Insert, item.id, fetched, None))
  }

  /** `DeleteItem`: a nil error on success; the default message speaks of updating. */
  function DeleteItem(id: Int8, failure: Option<string>): (r: Option<CustomError>)
    ensures r.None? <==> failure.None?
    ensures failure.Some? ==>
      && r.Some?
      && r.value.code == FailureStatus(failure.value)
      && r.value.message
         == (if r.value.code == StatusNotFound then "Item not found" else "An error occurred while updating the item")
  {
    DeleteCall(id, failure)
  }

  /**
   * `getPagedItems`: the same arithmetic and the same filter discrepancy as
   * the newer `GetPagedItems`, and the page's rows are returned as decoded.
   */
  function GetPagedItems(
    page: int, pageSize: int, counted: Result<nat, string>, fetched: Fetch<seq<Item>>)
    : (run: PagedRun)
    requires pageSize >= 1
    ensures ListingDecides([DeletedAtIsNull], [], page, pageSize, counted, fetched, None, run)
    ensures |run.issued| >= 1 && run.issued[0] == CountExact([DeletedAtIsNull])
    ensures |run.issued| == 2 ==> run.issued[1].SelectRange? && DeletedAtIsNull !in run.issued[1].filters
    ensures counted == Ok(0) ==> run.result == Ok(PageResult([], 0))
    ensures counted.Err? ==>
      run.result.Err? && run.result.error.code == StatusInternalServerError
      && run.result.error.message == "Failed to retrieve items"
    ensures counted.Ok? && counted.value > 0 && page > LastPage(counted.value, pageSize) ==>
      run.result.Err? && run.result.error.code == StatusBadRequest
      && run.result.error.message == "Page out of range"
    ensures run.result.Ok? && |run.issued| == 2 ==> fetched.Decoded? && run.result.value.items == fetched.value
  {
    PagedListing([DeletedAtIsNull], [], page, pageSize, counted, fetched, None)
  }
}

=== FILE: paging.dfy ===
/**
 * The pagination arithmetic shared by the paged listings: the last page of a
 * count, and the zero-based inclusive row window of a page.
 */
module Paging {

  /**
   * `lastPage := (int(count) + pageSize - 1) / pageSize`. The dividend is
   * never negative here, so Go's truncating division and Dafny's Euclidean
   * division agree.
   */
  function LastPage(count: nat, pageSize: int): nat
    requires pageSize >= 1
  {
    (count + pageSize - 1) / pageSize
  }

  /** `LastPage` is the ceiling of `count / pageSize`. */
  lemma {:induction false} LastPageIsCeiling(count: nat, pageSize: int)
    requires pageSize >= 1
    ensures LastPage(count, pageSize) * pageSize >= count
    ensures (LastPage(count, pageSize) - 1) * pageSize < count
    ensures count == 0 <==> LastPage(count, pageSize) == 0
  {
    var q := LastPage(count, pageSize);
    var r := (count + pageSize - 1) % pageSize;
    assert q * pageSize + r == count + pageSize - 1;
    assert (q - 1) * pageSize == q * pageSize - pageSize;
  }

  /** A zero-based, inclusive range of row offsets: `Range(first, last)` in the query. */
  datatype Window = Window(first: int, last: int)

  /**
   * The offsets of `page`: `pageStartIndex := (page - 1) * pageSize` and
   * `pageEndIndex := min(page * pageSize, count)`, passed as the inclusive
   * range `(pageStartIndex, pageEndIndex - 1)`.
   */
  function PageWindow(page: int, pageSize: int, count: nat): Window
  {
    var end := if page * pageSize < count then page * pageSize else count;
    Window((page - 1) * pageSize, end - 1)
  }

  /** `page` is one the listing serves rather than rejecting as out of range. */
  predicate ServedPage(page: int, pageSize: int, count: nat)
  {
    pageSize >= 1 && count > 0 && 1 <= page <= LastPage(count, pageSize)
  }

  /**
   * A served page's window lies inside `[0, count)`, is non-empty and holds
   * at most `pageSize` rows; every page but the last holds exactly `pageSize`.
   */
  lemma {:induction false} WindowBounds(page: int, pageSize: int, count: nat)
    requires ServedPage(page, pageSize, count)
    ensures 0 <= PageWindow(page, pageSize, count).first
    ensures PageWindow(page, pageSize, count).first <= PageWindow(page, pageSize, count).last
    ensures PageWindow(page, pageSize, count).last < count
    ensures PageWindow(page, pageSize, count).last - PageWindow(page, pageSize, count).first + 1 <= pageSize
    ensures page < LastPage(count, pageSize) ==>
      PageWindow(page, pageSize, count).last - PageWindow(page, pageSize, count).first + 1 == pageSize
  {
    LastPageIsCeiling(count, pageSize);
    var L := LastPage(count, pageSize);
    assert (page - 1) * pageSize <= (L - 1) * pageSize by {
      MulMonotone(page - 1, L - 1, pageSize);
    }
    assert page * pageSize == (page - 1) * pageSize + pageSize;
    if page < L {
      MulMonotone(page, L - 1, pageSize);
    }
  }

  /** Multiplying by a positive number keeps order. */
  lemma MulMonotone(a: int, b: int, c: int)
    requires a <= b && c >= 1
    ensures a * c <= b * c
  {
    assert b * c - a * c == (b - a) * c;
  }

  /** Successive served pages are contiguous: each starts right after the previous one ends. */
  lemma {:induction false} WindowsContiguous(page: int, pageSize: int, count: nat)
    requires ServedPage(page, pageSize, count) && ServedPage(page + 1, pageSize, count)
    ensures PageWindow(page + 1, pageSize, count).first == PageWindow(page, pageSize, count).last + 1
  {
    LastPageIsCeiling(count, pageSize);
    var L := LastPage(count, pageSize);
    MulMonotone(page, L - 1, pageSize);
    assert page * pageSize == (page + 1 - 1) * pageSize;
  }

  /** The first page starts at offset 0 and the last page ends at `count - 1`. */
  lemma {:induction false} WindowsSpan(pageSize: int, count: nat)
    requires pageSize >= 1 && count > 0
    ensures ServedPage(1, pageSize, count) && ServedPage(LastPage(count, pageSize), pageSize, count)
    ensures PageWindow(1, pageSize, count).first == 0
    ensures PageWindow(LastPage(count, pageSize), pageSize, count).last == count - 1
  {
    LastPageIsCeiling(count, pageSize);
  }

  /**
   * Every offset in `[0, count)` lies in exactly one served page's window:
   * page `k / pageSize + 1`.
   */
  lemma {:induction false} WindowsCover(k: int, pageSize: int, count: nat)
    requires pageSize >= 1 && 0 <= k < count
    ensures ServedPage(k / pageSize + 1, pageSize, count)
    ensures PageWindow(k / pageSize + 1, pageSize, count).first <= k
    ensures k <= PageWindow(k / pageSize + 1, pageSize, count).last
    ensures forall p ::
              (ServedPage(p, pageSize, count)
               && PageWindow(p, pageSize, count).first <= k <= PageWindow(p, pageSize, count).last)
              ==> p == k / pageSize + 1
  {
    var p := k / pageSize + 1;
    var r := k % pageSize;
    assert k == (p - 1) * pageSize + r;
    LastPageIsCeiling(count, pageSize);
    var L := LastPage(count, pageSize);
    assert p <= L by {
      if p > L {
        MulMonotone(L, p - 1, pageSize);
      }
    }
    assert p * pageSize == (p - 1) * pageSize + pageSize;
    forall p' | ServedPage(p', pageSize, count) &&
      PageWindow(p', pageSize, count).first <= k <= PageWindow(p', pageSize, count).last
      ensures p' == p
    {
      assert p' * pageSize == (p' - 1) * pageSize + pageSize;
      if p' < p {
        MulMonotone(p', p - 1, pageSize);
      } else if p' > p {
        MulMonotone(p, p' - 1, pageSize);
      }
    }
  }

  /** Windows of distinct served pages never overlap. */
  lemma {:induction false} WindowsDisjoint(p1: int, p2: int, pageSize: int, count: nat)
    requires ServedPage(p1, pageSize, count) && ServedPage(p2, pageSize, count) && p1 < p2
    ensures PageWindow(p1, pageSize, count).last < PageWindow(p2, pageSize, count).first
  {
    MulMonotone(p1, p2 - 1, pageSize);
    assert p1 * pageSize == (p1 - 1) * pageSize + pageSize;
  }

  /** Worked case: 25 rows in pages of 10; page 3 covers offsets 20 to 24, five rows. */
  lemma WindowExample()
    ensures LastPage(25, 10) == 3
    ensures PageWindow(3, 10, 25) == Window(20, 24)
  {
  }

  /**
   * The rows a `Range(first, last)` request returns from `rows`: offsets
   * `first..last` inclusive, clipped to the rows that exist.
   */
  function Slice<T>(rows: seq<T>, w: Window): (r: seq<T>)
    ensures 0 <= w.first <= w.last < |rows| ==> r == rows[w.first..w.last + 1]
  {
    var lo := if w.first < 0 then 0 else if w.first > |rows| then |rows| else w.first;
    var hi := if w.last + 1 < lo then lo else if w.last + 1 > |rows| then |rows| else w.last + 1;
    rows[lo..hi]
  }

  /** The rows of pages `1..n`, page after page. */
  function PagesUpTo<T>(rows: seq<T>, pageSize: int, n: nat): seq<T>
    requires pageSize >= 1
  {
    if n == 0 then [] else PagesUpTo(rows, pageSize, n - 1) + Slice(rows, PageWindow(n, pageSize, |rows|))
  }

  /** Pages `1..n` together hold the rows up to the end of page `n`'s window, in order. */
  lemma {:induction false} PagesUpToEndsAtWindow<T>(rows: seq<T>, pageSize: int, n: nat)
    requires pageSize >= 1 && |rows| > 0 && n <= LastPage(|rows|, pageSize)
    ensures 0 <= PageWindow(n, pageSize, |rows|).last + 1 <= |rows|
    ensures PagesUpTo(rows, pageSize, n) == rows[..PageWindow(n, pageSize, |rows|).last + 1]
  {
    if n == 0 {
      assert PageWindow(n, pageSize, |rows|).last + 1 == 0;
    } else {
      PagesUpToEndsAtWindow(rows, pageSize, n - 1);
      WindowBounds(n, pageSize, |rows|);
      WindowFollowsPrevious(n, pageSize, |rows|);
      var w := PageWindow(n, pageSize, |rows|);
      var a, b := w.first, w.last + 1;
      var prev := PagesUpTo(rows, pageSize, n - 1);
      assert prev == rows[..a];
      assert Slice(rows, w) == rows[a..b];
      assert PagesUpTo(rows, pageSize, n) == prev + Slice(rows, w);
      assert rows[..a] + rows[a..b] == rows[..b];
    }
  }

  /** A served page starts where the pages before it end. */
  lemma WindowFollowsPrevious(n: int, pageSize: int, count: nat)
    requires ServedPage(n, pageSize, count)
    ensures PageWindow(n - 1, pageSize, count).last + 1 == PageWindow(n, pageSize, count).first
  {
    LastPageIsCeiling(count, pageSize);
    MulMonotone(n - 1, LastPage(count, pageSize) - 1, pageSize);
  }

  /** Pages `1..n` together hold exactly the first `min(n * pageSize, |rows|)` rows, in order. */
  lemma {:induction false} PagesUpToIsPrefix<T>(rows: seq<T>, pageSize: int, n: nat)
    requires pageSize >= 1 && |rows| > 0 && n <= LastPage(|rows|, pageSize)
    ensures n * pageSize <= |rows| ==> PagesUpTo(rows, pageSize, n) == rows[..n * pageSize]
    ensures n * pageSize > |rows| ==> PagesUpTo(rows, pageSize, n) == rows
  {
    PagesUpToEndsAtWindow(rows, pageSize, n);
    var end := PageWindow(n, pageSize, |rows|).last + 1;
    if n * pageSize > |rows| {
      assert end == |rows|;
      assert rows[..end] == rows;
    }
  }

  /** The served pages, taken in order, tile the rows exactly: nothing missed, nothing repeated. */
  lemma {:induction false} PagesTile<T>(rows: seq<T>, pageSize: int)
    requires pageSize >= 1 && |rows| > 0
    ensures PagesUpTo(rows, pageSize, LastPage(|rows|, pageSize)) == rows
  {
    var L := LastPage(|rows|, pageSize);
    LastPageIsCeiling(|rows|, pageSize);
    PagesUpToIsPrefix(rows, pageSize, L);
    if L * pageSize <= |rows| {
      assert rows[..L * pageSize] == rows;
    }
  }
}

=== FILE: queries.dfy ===
/**
 * The queries the paged listings send to the backend, recorded as data, and
 * a reference semantics for them over a table of rows. The reference
 * semantics is used only to state what the listings return from a backend
 * that answers consistently; the listings themselves take the backend's
 * answers as inputs.
 */
module Queries {
  import opened Schemas
  import opened Paging

  /** A row filter: `Is("deleted_at", "null")`, or `Ilike("name", pattern)`. */
  datatype Filter = DeletedAtIsNull | NameILike(pattern: string)

  /**
   * A query against the `items` table: an exact count, or a selection of the
   * rows in a window of offsets, ordered by name ascending.
   */
  datatype Query =
    | CountExact(filters: seq<Filter>)
    | SelectRange(filters: seq<Filter>, window: Window)

  /** The pattern `PagedItemSearch` gives `Ilike`: the name between two `%` wildcards. */
  function SearchPattern(name: string): (p: string)
    ensures |p| == |name| + 2
    ensures p[0] == '%' && p[|p| - 1] == '%'
    ensures p[1..|p| - 1] == name
  {
    "%" + name + "%"
  }

  /**
   * Whether `row` passes one filter. Case-insensitive pattern matching is the
   * backend's and enters as the parameter `ilike(name, pattern)`.
   */
  predicate Keeps(row: Item, f: Filter, ilike: (string, string) -> bool)
  {
    match f
    case DeletedAtIsNull => row.deletedAt.None?
    case NameILike(pattern) => ilike(row.name, pattern)
  }

  /** Whether `row` passes every filter of a query. */
  predicate PassesAll(row: Item, filters: seq<Filter>, ilike: (string, string) -> bool)
  {
    forall i :: 0 <= i < |filters| ==> Keeps(row, filters[i], ilike)
  }

  /** The rows of `table` that pass every filter, in table order. */
  function Select(table: seq<Item>, filters: seq<Filter>, ilike: (string, string) -> bool): (r: seq<Item>)
    ensures |r| <= |table|
    ensures forall i :: 0 <= i < |r| ==> PassesAll(r[i], filters, ilike)
    ensures forall x :: x in r ==> x in table
    ensures forall i :: 0 <= i < |table| && PassesAll(table[i], filters, ilike) ==> table[i] in r
    ensures |table| == 1 ==> r == (if PassesAll(table[0], filters, ilike) then table else [])
    decreases |table|
  {
    if |table| == 0 then []
    else
      var rest := Select(table[1..], filters, ilike);
      if PassesAll(table[0], filters, ilike) then [table[0]] + rest else rest
  }

  /**
   * Selection keeps the table's order: selecting from two tables laid end to
   * end is selecting from each and laying the results end to end. With the
   * one-row case of `Select`'s contract this fixes every selection.
   */
  lemma {:induction false} SelectAppend(a: seq<Item>, b: seq<Item>, filters: seq<Filter>, ilike: (string, string) -> bool)
    ensures Select(a + b, filters, ilike) == Select(a, filters, ilike) + Select(b, filters, ilike)
    decreases |a|
  {
    if |a| > 0 {
      assert (a + b)[1..] == a[1..] + b;
      SelectAppend(a[1..], b, filters, ilike);
    } else {
      assert a + b == b;
    }
  }

  /**
   * Dropping filters never shrinks a selection: when every filter of `fewer`
   * also belongs to `more`, selecting by `more` gives no more rows.
   */
  lemma {:induction false} SelectFewerFilters(
    table: seq<Item>, more: seq<Filter>, fewer: seq<Filter>, ilike: (string, string) -> bool)
    requires forall f :: f in fewer ==> f in more
    ensures |Select(table, more, ilike)| <= |Select(table, fewer, ilike)|
    decreases |table|
  {
    if |table| > 0 {
      SelectFewerFilters(table[1..], more, fewer, ilike);
      if PassesAll(table[0], more, ilike) {
        forall i | 0 <= i < |fewer|
          ensures Keeps(table[0], fewer[i], ilike)
        {
          assert fewer[i] in more;
          var j :| 0 <= j < |more| && more[j] == fewer[i];
        }
      }
    }
  }
}

=== FILE: responses.dfy ===
/**
 * The response decisions every handler shares: how a service error becomes a
 * response, and how a service's `*CustomError` reaches a handler as a Go
 * `error`.
 */
module Responses {
  import opened Wrappers
  import opened Schemas

  /** Every service returns its `CustomError` by pointer. */
  function Raise<T>(r: Result<T, CustomError>): (g: Result<T, GoError>)
    ensures g.Ok? <==> r.Ok?
    ensures g.Ok? ==> g.value == r.value
    ensures g.Err? ==> g.error == CustomPointer(r.error)
  {
    match r
    case Ok(v) => Ok(v)
    case Err(e) => Err(CustomPointer(e))
  }

  /** The error-or-nil a delete service returns, as a Go `error`. */
  function RaiseOption(r: Option<CustomError>): (g: Option<GoError>)
    ensures g.None? <==> r.None?
    ensures g.Some? ==> g.value == CustomPointer(r.value)
  {
    match r
    case None => None
    case Some(e) => Some(CustomPointer(e))
  }

  /** A failure envelope carries only a message. */
  function Failure(status: int, message: string): Reply
  {
    Respond(status, ApiResponse(false, message, None))
  }

  /** A success envelope. */
  function Success(status: int, message: string, data: Option<Data>): Reply
  {
    Respond(status, ApiResponse(true, message, data))
  }

  /**
   * How a handler answers a service error: a custom error passes its code
   * and message through (its details are only logged); any other error gives
   * 500 with the handler's own message. The handler asserts the pointer
   * form, so a `CustomError` value, which `IsCustomError` also accepts,
   * panics.
   */
  function ErrorReply(err: GoError, fallback: string): (r: Reply)
    ensures err.CustomPointer? ==> r == Failure(err.custom.code, err.custom.message)
    ensures !IsCustomError(err) ==> r == Failure(StatusInternalServerError, fallback)
    ensures err.CustomValue? ==> r.Panic?
    ensures r.Respond? ==> !r.body.success && r.body.data.None?
  {
    if IsCustomError(err) then
      match err
      case CustomPointer(e) => Failure(e.code, e.message)
      case _ => Panic("interface conversion: error is schemas.CustomError, not *schemas.CustomError")
    else Failure(StatusInternalServerError, fallback)
  }

  /** A custom error's details never reach the response. */
  lemma ErrorReplyHidesDetails(e: CustomError, details: string, fallback: string)
    ensures ErrorReply(CustomPointer(e), fallback) == ErrorReply(CustomPointer(e.(details := details)), fallback)
  {
  }

  /**
   * `IsCustomError` accepts a `CustomError` in either form and nothing else;
   * for an error it accepts, the handler's answer is that error's own code
   * and message, or the panic of the value form; it never falls back.
   */
  lemma IsCustomErrorDecidesReply(err: GoError, fallback: string)
    ensures IsCustomError(err) <==> !err.PlainError?
    ensures IsCustomError(err) ==>
      ErrorReply(err, fallback).Panic? || ErrorReply(err, fallback) == Failure(err.custom.code, err.custom.message)
    ensures !IsCustomError(err) ==> ErrorReply(err, fallback) == Failure(StatusInternalServerError, fallback)
  {
  }
}

=== FILE: schemas.dfy ===
/**
 * The records exchanged by the services and handlers: items, suppliers,
 * contact records, the CustomError taxonomy and the ApiResponse envelope.
 */
module Schemas {
  import opened Wrappers

  /** Go's `int8`, used for every id and for an item's quantity. */
  type Int8 = x: int | -128 <= x <= 127

  /** HTTP statuses the system emits. */
  const StatusOK := 200
  const StatusCreated := 201
  const StatusBadRequest := 400
  const StatusNotFound := 404
  const StatusInternalServerError := 500

  /** An item row. `imageUrl` is derived, never stored; `deletedAt` marks a soft delete. */
  datatype Item = Item(
    id: Int8,
    name: string,
    description: string,
    purchasePrice: real,
    quantity: Int8,
    category: string,
    imageUrl: Option<string>,
    supplierId: Int8,
    notes: string,
    createdAt: string,
    updatedAt: string,
    deletedAt: Option<string>)

  /** One contact record owned by a supplier. */
  datatype SupplierContactInfo = SupplierContactInfo(
    id: Int8,
    supplierId: Int8,
    contactName: string,
    phone: string,
    email: string)

  /** A Go slice of contact records: `None` is the nil slice, which JSON renders as `null`. */
  type ContactList = Option<seq<SupplierContactInfo>>

  /** A supplier row with its nested contact records. */
  datatype Supplier = Supplier(
    id: Int8,
    name: string,
    contactInfo: ContactList,
    createdAt: string,
    updatedAt: string,
    deletedAt: Option<string>)

  /** The error every service returns: a public code and message, and private details. */
  datatype CustomError = CustomError(code: int, message: string, details: string)

  /**
   * A Go `error` as the handlers see it: a `CustomError` value, a pointer to
   * one, or any other error, of which only the text is known.
   */
  datatype GoError =
    | CustomValue(custom: CustomError)
    | CustomPointer(custom: CustomError)
    | PlainError(text: string)

  /** True for both forms of `CustomError`, false for every other error. */
  predicate IsCustomError(err: GoError)
  {
    match err
    case CustomValue(_) => true
    case CustomPointer(_) => true
    case PlainError(_) => false
  }

  /** A value inside a loosely typed JSON object (`map[string]interface{}`). */
  datatype JsonValue =
    | JString(s: string)
    | JNumber(x: real)
    | JOther   // null, a boolean, an array or an object

  /** A loosely typed JSON object as decoded by gin. */
  type Payload = map<string, JsonValue>

  /** What a handler can put in the `data` field of the envelope. */
  datatype Data =
    | ItemData(item: Item)
    | SupplierData(supplier: Supplier)
    | PagedItemsData(count: nat, page: int, pageSize: int, items: seq<Item>)

  /** The response envelope; it has no field for `CustomError.details`. */
  datatype ApiResponse = ApiResponse(success: bool, message: string, data: Option<Data>)

  /**
   * What a handler produces: a JSON response with its status, or a Go panic
   * (which gin's recovery middleware, outside this model, turns into a 500).
   */
  datatype Reply = Respond(status: int, body: ApiResponse) | Panic(reason: string)

  /**
   * The abstract outcome of one backend call that returns rows: the call
   * failed with an error text, or it returned data that could not be decoded,
   * or it returned data decoded to `value`.
   */
  datatype Fetch<+T> =
    | BackendFailed(text: string)
    | Undecodable(reason: string)
    | Decoded(value: T)
}

=== FILE: supplier_handlers.dfy ===
/** The supplier handler (`v1/routes/suppliers/handlers.go`). */
module SupplierHandlers {
  import opened Wrappers
  import opened Schemas
  import opened Utils
  import opened Responses
  import SupplierService

  /** `GetSupplierHandler`, with `getSupplier` standing for the service `GetSupplier`. */
  function GetSupplierHandler(idParam: string, getSupplier: Int8 -> Result<Supplier, GoError>): (r: Reply)
    ensures GetIdFromContext(idParam).Err? ==> r == Failure(StatusBadRequest, "Invalid ID")
    ensures GetIdFromContext(idParam).Ok? ==>
      var out := getSupplier(GetIdFromContext(idParam).value);
      && (out.Ok? ==> r == Success(StatusOK, "Supplier retrieved successfully", Some(SupplierData(out.value))))
      && (out.Err? && out.error.CustomPointer? ==>
            r == Failure(out.error.custom.code, out.error.custom.message))
      && (out.Err? && !IsCustomError(out.error) ==>
            r == Failure(StatusInternalServerError, "Failed to retrieve supplier"))
  {
    match GetIdFromContext(idParam)
    case Err(_) => Failure(StatusBadRequest, "Invalid ID")
    case Ok(id) =>
      match getSupplier(id)
      case Err(e) => ErrorReply(e, "Failed to retrieve supplier")
      case Ok(supplier) => Success(StatusOK, "Supplier retrieved successfully", Some(SupplierData(supplier)))
  }

  /** An invalid id is answered with 400 without consulting the service. */
  lemma InvalidSupplierIdSkipsService(
    idParam: string, s1: Int8 -> Result<Supplier, GoError>, s2: Int8 -> Result<Supplier, GoError>)
    requires GetIdFromContext(idParam).Err?
    ensures GetSupplierHandler(idParam, s1) == GetSupplierHandler(idParam, s2)
    ensures GetSupplierHandler(idParam, s1).status == StatusBadRequest
  {
  }

  /**
   * Wired to `GetSupplier`, the handler never panics, and a supplier it
   * returns always carries a contact list, never `null`.
   */
  lemma {:induction false} WiredSupplierHandler(idParam: string, fetched: Fetch<Supplier>)
    ensures var r := GetSupplierHandler(idParam, (id: Int8) => Raise(SupplierService.GetSupplier(id, fetched)));
            && !r.Panic?
            && (r.body.success ==>
                  (r.body.data.Some? && r.body.data.value.SupplierData?
                   && r.body.data.value.supplier.contactInfo.Some?))
  {
  }
}

=== FILE: supplier_service.dfy ===
/**
 * The supplier services: fetching one supplier with its nested contact
 * records, and fetching a supplier's contact records on their own.
 */
module SupplierService {
  import opened Wrappers
  import opened Schemas
  import opened Text
  import opened Errors
  import opened Classify

  const SupplierDefault := "An error occurred while retrieving the supplier"
  const SupplierNotFound := "Supplier not found"
  const SupplierParseFailed := "Failed to parse supplier data"

  /** The private details of a failed supplier fetch. */
  function SupplierDetails(id: Int8, text: string): string
  {
    "Error retrieving supplier with ID " + FormatInt(id) + ": " + text
  }

  /** The requested id appears, in decimal, in the details of a failed fetch. */
  lemma SupplierDetailsNameId(id: Int8, text: string)
    ensures Contains(SupplierDetails(id, text), FormatInt(id))
  {
    ContainsInfix("Error retrieving supplier with ID ", FormatInt(id), ": " + text);
    assert SupplierDetails(id, text) == "Error retrieving supplier with ID " + FormatInt(id) + (": " + text);
  }

  /**
   * `GetSupplier`: the classified failure, or the decoded supplier whose nil
   * contact list is replaced by an empty one.
   */
  function GetSupplier(id: Int8, fetched: Fetch<Supplier>): (r: Result<Supplier, CustomError>)
    ensures r.Ok? <==> fetched.Decoded?
    ensures r.Ok? ==> r.value.contactInfo.Some?
    ensures r.Ok? && fetched.value.contactInfo.Some? ==> r.value == fetched.value
    ensures r.Ok? && fetched.value.contactInfo.None? ==> r.value == fetched.value.(contactInfo := Some([]))
    ensures fetched.BackendFailed? ==>
      && r.Err?
      && r.error.code == FailureStatus(fetched.text)
      && r.error.message == (if r.error.code == StatusNotFound then SupplierNotFound else SupplierDefault)
    ensures fetched.BackendFailed? ==> Contains(r.error.details, FormatInt(id))
    ensures fetched.Undecodable? ==>
      r.error.code == StatusInternalServerError && r.error.message == SupplierParseFailed
  {
    match fetched
    case BackendFailed(text) =>
      SupplierDetailsNameId(id, text);
      Err(ClassifyBackendError(text, SupplierDefault, SupplierNotFound, SupplierDetails(id, text)))
    case Undecodable(reason) =>
      Err(CustomError(StatusInternalServerError, SupplierParseFailed,
        "Error parsing supplier data for ID " + FormatInt(id) + ": " + reason))
    case Decoded(supplier) =>
      if supplier.contactInfo.None? then Ok(supplier.(contactInfo := Some([]))) else Ok(supplier)
  }

  /** Normalising the contact list is idempotent: a returned supplier passes through unchanged. */
  lemma GetSupplierIdempotent(id: Int8, fetched: Fetch<Supplier>)
    requires GetSupplier(id, fetched).Ok?
    ensures GetSupplier(id, Decoded(GetSupplier(id, fetched).value)) == GetSupplier(id, fetched)
  {
  }
}

/** The contact-records service, in which "not found" means "no records". */
module ContactInfoService {
  import opened Wrappers
  import opened Schemas
  import opened Text
  import opened Errors
  import opened Classify

  const ContactDefault := "An error occurred while retrieving the supplier contact info"
  const ContactParseFailed := "Failed to parse supplier contact info data"

  /** The private details of a failed contact-records fetch. */
  function ContactDetails(supplierId: Int8, text: string): string
  {
    "Error retrieving supplier contact info for supplier with ID " + FormatInt(supplierId) + ": " + text
  }

  /** The supplier's id appears, in decimal, in the details of a failed fetch. */
  lemma ContactDetailsNameId(supplierId: Int8, text: string)
    ensures Contains(ContactDetails(supplierId, text), FormatInt(supplierId))
  {
    var prefix := "Error retrieving supplier contact info for supplier with ID ";
    ContainsInfix(prefix, FormatInt(supplierId), ": " + text);
    assert ContactDetails(supplierId, text) == prefix + FormatInt(supplierId) + (": " + text);
  }

  /**
   * `GetSupplierContactInfo`: a normaliser 404 is an empty list and no
   * error; any other failure is classified with the default message (there
   * is no not-found message to rename to); decoded records pass unchanged.
   */
  function GetSupplierContactInfo(supplierId: Int8, fetched: Fetch<ContactList>)
    : (r: Result<ContactList, CustomError>)
    ensures fetched.Decoded? ==> r == Ok(fetched.value)
    ensures fetched.BackendFailed? ==>
      (r.Ok? <==> PostgresToHTTPError(fetched.text) == Some(StatusNotFound))
    ensures fetched.BackendFailed? && r.Ok? ==> r.value == Some([])
    ensures fetched.BackendFailed? && FailureStatus(fetched.text) != StatusNotFound ==>
      && r.Err?
      && r.error.code == FailureStatus(fetched.text)
      && r.error.message == ContactDefault
      && Contains(r.error.details, FormatInt(supplierId))
    ensures r.Err? ==> r.error.code != StatusNotFound
    ensures fetched.Undecodable? ==>
      r.Err? && r.error.code == StatusInternalServerError && r.error.message == ContactParseFailed
  {
    match fetched
    case BackendFailed(text) =>
      ContactDetailsNameId(supplierId, text);
      var e := ClassifyBackendError(text, ContactDefault, ContactDefault, ContactDetails(supplierId, text));
      if e.code == StatusNotFound then Ok(Some([])) else Err(e)
    case Undecodable(reason) =>
      Err(CustomError(StatusInternalServerError, ContactParseFailed,
        "Error parsing supplier contact info data for supplier ID " + FormatInt(supplierId) + ": " + reason))
    case Decoded(records) => Ok(records)
  }
}

=== FILE: text.dfy ===
/**
 * The pieces of Go's standard library the core leans on, restated over
 * `seq<char>`: `%d` formatting, `strconv.ParseInt(s, 10, 8)`,
 * `strings.TrimRight` with a one-character cutset, and `strings.Contains`.
 */
module Text {
  import opened Wrappers

  predicate IsDigit(c: char)
  {
    '0' <= c <= '9'
  }

  predicate AllDigits(s: string)
  {
    forall i :: 0 <= i < |s| ==> IsDigit(s[i])
  }

  function DigitValue(c: char): nat
    requires IsDigit(c)
  {
    c as int - '0' as int
  }

  function DigitChar(d: nat): (c: char)
    requires d < 10
    ensures IsDigit(c) && DigitValue(c) == d
  {
    ('0' as int + d) as char
  }

  /** The value of a string of decimal digits, most significant digit first. */
  function DigitsValue(s: string): nat
    requires AllDigits(s)
    decreases |s|
  {
    if |s| == 0 then 0 else DigitsValue(s[..|s| - 1]) * 10 + DigitValue(s[|s| - 1])
  }

  /** Appending a digit multiplies the value so far by ten and adds the digit. */
  lemma DigitsValueSnoc(s: string, c: char)
    requires AllDigits(s) && IsDigit(c)
    ensures AllDigits(s + [c])
    ensures DigitsValue(s + [c]) == DigitsValue(s) * 10 + DigitValue(c)
  {
    assert (s + [c])[..|s + [c]| - 1] == s;
  }

  /**
   * `%d` of a natural number: a non-empty run of digits denoting `n`, with no
   * leading zero unless `n` is zero.
   */
  function NatToDecimal(n: nat): (s: string)
    ensures |s| > 0 && AllDigits(s) && DigitsValue(s) == n
    ensures s[0] == '0' ==> n == 0
    decreases n
  {
    if n < 10 then [DigitChar(n)]
    else
      var prefix := NatToDecimal(n / 10);
      DigitsValueSnoc(prefix, DigitChar(n % 10));
      prefix + [DigitChar(n % 10)]
  }

  /** `%d` (and `%v`) of an integer: a minus sign before the digits of a negative number. */
  function FormatInt(n: int): (s: string)
    ensures n < 0 ==> |s| > 1 && s[0] == '-' && AllDigits(s[1..]) && DigitsValue(s[1..]) == -n
    ensures n >= 0 ==> |s| > 0 && AllDigits(s) && DigitsValue(s) == n
    ensures n >= 0 && s[0] == '0' ==> n == 0
    ensures n < 0 ==> s[1] != '0'
    ensures n == 0 ==> s == "0"
  {
    if n < 0 then "-" + NatToDecimal(-n) else NatToDecimal(n)
  }

  /**
   * `s` is an optionally signed decimal numeral denoting `v`: digits alone,
   * or `+` or `-` followed by at least one digit.
   */
  ghost predicate Denotes(s: string, v: int)
  {
    || (|s| > 0 && AllDigits(s) && DigitsValue(s) == v)
    || (|s| > 1 && s[0] == '+' && AllDigits(s[1..]) && DigitsValue(s[1..]) == v)
    || (|s| > 1 && s[0] == '-' && AllDigits(s[1..]) && v == -(DigitsValue(s[1..]) as int))
  }

  /**
   * `strconv.ParseInt(s, 10, 8)`: one optional sign, then one or more ASCII
   * digits, whose value must fit in an `int8`; anything else is an error
   * (`None`). Leading zeros are accepted, underscores are not (base 10).
   */
  function ParseInt8(s: string): (r: Option<int>)
    ensures r.Some? ==> -128 <= r.value <= 127 && Denotes(s, r.value)
    ensures forall v {:trigger Denotes(s, v)} :: Denotes(s, v) && -128 <= v <= 127 ==> r == Some(v)
  {
    var negative := |s| > 0 && s[0] == '-';
    var digits := if |s| > 0 && (s[0] == '-' || s[0] == '+') then s[1..] else s;
    if |digits| == 0 || !AllDigits(digits) then None
    else
      var v: int := if negative then -(DigitsValue(digits) as int) else DigitsValue(digits);
      if -128 <= v <= 127 then Some(v) else None
  }

  /** Formatting an `int8` with `%d` and parsing it back gives the same number. */
  lemma ParseFormatRoundTrip(n: int)
    requires -128 <= n <= 127
    ensures ParseInt8(FormatInt(n)) == Some(n)
  {
    var s := FormatInt(n);
    if n < 0 {
      assert Denotes(s, n);
    } else {
      assert s[0] != '+' && s[0] != '-' by { assert IsDigit(s[0]); }
      assert Denotes(s, n);
    }
  }

  /**
   * `strings.TrimRight(s, string(c))`: `s` with every trailing `c` removed;
   * what remains is a prefix of `s` that does not end in `c`.
   */
  function TrimRight(s: string, c: char): (r: string)
    ensures r <= s
    ensures forall k :: |r| <= k < |s| ==> s[k] == c
    ensures |r| == 0 || r[|r| - 1] != c
    decreases |s|
  {
    if |s| > 0 && s[|s| - 1] == c then TrimRight(s[..|s| - 1], c) else s
  }

  /** `sub` occurs in `s` starting at position `i`. */
  ghost predicate OccursAt(s: string, sub: string, i: int)
  {
    0 <= i && i + |sub| <= |s| && s[i..i + |sub|] == sub
  }

  /** Shifting by one position: an occurrence past the start of `s` is one in `s[1..]`. */
  lemma OccursShift(s: string, sub: string)
    requires |s| > 0
    requires !OccursAt(s, sub, 0)
    ensures (exists i :: OccursAt(s, sub, i)) <==> (exists j :: OccursAt(s[1..], sub, j))
  {
    forall j | OccursAt(s[1..], sub, j)
      ensures OccursAt(s, sub, j + 1)
    {
      assert s[1..][j..j + |sub|] == s[j + 1..j + 1 + |sub|];
    }
    forall i | OccursAt(s, sub, i)
      ensures OccursAt(s[1..], sub, i - 1)
    {
      assert s[1..][i - 1..i - 1 + |sub|] == s[i..i + |sub|];
    }
  }

  /** A string laid between two others is contained in the result. */
  lemma ContainsInfix(prefix: string, sub: string, suffix: string)
    ensures Contains(prefix + sub + suffix, sub)
  {
    var s := prefix + sub + suffix;
    assert s[|prefix|..|prefix| + |sub|] == sub;
    assert OccursAt(s, sub, |prefix|);
  }

  /** `strings.Contains(s, sub)`. */
  function Contains(s: string, sub: string): (b: bool)
    ensures b <==> exists i :: OccursAt(s, sub, i)
    decreases |s|
  {
    if |sub| > |s| then false
    else if s[..|sub|] == sub then
      assert OccursAt(s, sub, 0);
      true
    else
      OccursShift(s, sub);
      Contains(s[1..], sub)
  }
}

=== FILE: utils.dfy ===
/**
 * The field guard and the id parse shared by the handlers: stripping
 * server-owned keys from a payload, checking required keys, the range test,
 * and the path-id parse.
 */
module Utils {
  import opened Wrappers
  import opened Schemas
  import opened Text

  /**
   * The pure part of `GetIdFromContext`: the `id` path parameter parsed by
   * `strconv.ParseInt(s, 10, 8)`. Signed values are accepted, so negative ids
   * parse; a failure carries the text `invalid ID: <param>`.
   */
  function GetIdFromContext(idParam: string): (r: Result<Int8, string>)
    ensures r.Ok? ==> Denotes(idParam, r.value)
    ensures forall v {:trigger Denotes(idParam, v)} ::
      Denotes(idParam, v) && -128 <= v <= 127 ==> r == Ok(v)
    ensures r.Err? ==> r.error == "invalid ID: " + idParam
  {
    match ParseInt8(idParam)
    case Some(v) => Ok(v)
    case None => Err("invalid ID: " + idParam)
  }

  /** An id printed by `%d` comes back unchanged through the id parse. */
  lemma IdRoundTrip(id: Int8)
    ensures GetIdFromContext(FormatInt(id)) == Ok(id)
  {
    ParseFormatRoundTrip(id);
  }

  /** The keys listed in `fields`. */
  function KeySet(fields: seq<string>): set<string>
  {
    set f | f in fields
  }

  /**
   * `RemoveProtectedFields`: deletes each listed key in turn. Absent keys are
   * no-ops; every other key keeps its value.
   */
  function RemoveProtectedFields<V>(m: map<string, V>, fields: seq<string>): (r: map<string, V>)
    ensures r.Keys == m.Keys - KeySet(fields)
    ensures forall k :: k in r ==> r[k] == m[k]
    decreases |fields|
  {
    if |fields| == 0 then m
    else
      assert KeySet(fields) == {fields[0]} + KeySet(fields[1..]);
      RemoveProtectedFields(m - {fields[0]}, fields[1..])
  }

  /** Stripping twice is the same as stripping once. */
  lemma RemoveProtectedFieldsIdempotent<V>(m: map<string, V>, fields: seq<string>)
    ensures RemoveProtectedFields(RemoveProtectedFields(m, fields), fields)
         == RemoveProtectedFields(m, fields)
  {
  }

  /** The text of the error `CheckRequiredFields` returns for a missing key. */
  function MissingFieldMessage(field: string): string
  {
    "missing required field: " + field
  }

  /**
   * `CheckRequiredFields`: `None` (a nil error) when every required key is
   * present; otherwise an error naming the first missing key in list order.
   */
  function CheckRequiredFields<V>(m: map<string, V>, required: seq<string>): (r: Option<string>)
    ensures r.None? <==> forall i :: 0 <= i < |required| ==> required[i] in m
    ensures r.Some? ==> exists i ::
      && 0 <= i < |required| && required[i] !in m
      && (forall j :: 0 <= j < i ==> required[j] in m)
      && r.value == MissingFieldMessage(required[i])
    decreases |required|
  {
    if |required| == 0 then None
    else if required[0] !in m then Some(MissingFieldMessage(required[0]))
    else
      var rest := CheckRequiredFields(m, required[1..]);
      if rest.Some? then
        var i :| && 0 <= i < |required[1..]| && required[1..][i] !in m
                 && (forall j :: 0 <= j < i ==> required[1..][j] in m)
                 && rest.value == MissingFieldMessage(required[1..][i]);
        assert required[i + 1] !in m;
        assert forall j :: 0 <= j < i + 1 ==> required[j] in m by {
          forall j | 0 <= j < i + 1
            ensures required[j] in m
          {
            if j > 0 { assert required[j] == required[1..][j - 1]; }
          }
        }
        rest
      else
        assert forall i :: 0 <= i < |required| ==> required[i] in m by {
          forall i | 0 <= i < |required|
            ensures required[i] in m
          {
            if i > 0 { assert required[i] == required[1..][i - 1]; }
          }
        }
        rest
  }

  /** `InRange(value, min, max)`: both bounds are inclusive. */
  function InRange(value: int, min: int, max: int): (b: bool)
    ensures b <==> min <= value && value <= max
  {
    value >= min && value <= max
  }
}

=== FILE: wrappers.dfy ===
/** Failure-carrying datatypes shared by every module of the model. */
module Wrappers {

  /** A value that may be absent; also stands for a Go nil pointer, slice or map. */
  datatype Option<+T> = None | Some(value: T)

  /** Either a value or an error, in the place of Go's `(value, error)` pairs. */
  datatype Result<+T, +E> = Ok(value: T) | Err(error: E)
}
